=== FILE: README.md ===
# Logger — a Dafny model

This project models the `Logger` class of a small TypeScript logging library (`src/index.ts`).
A logger holds a configuration object:

- a name;
- a date pattern;
- the levels to show on the console;
- the levels to write to files;
- a directory.

Each of `info`, `warn`, `error` and `verbose` goes through the private `log`, which works as follows:

- it reads the clock and renders the date with `getDate`, a fixed chain of first-occurrence `replace` calls over the pattern;
- it builds one raw line holding two placeholder markers;
- from that raw line it derives a plain line for the log file and a coloured line for the console;
- through `writeLog`, it appends the plain line plus `\r\n` to `<path>/<name>/<yyyy-MM-dd>.log`;
- it prints the coloured line.

The model is made of pure functions over immutable values:

- `Options`: `Option`, standing for a JavaScript value that may be `undefined`.
- `Strings`: `String.prototype.replace` with a string pattern. Only the leftmost occurrence is replaced. `ReplaceFirst` defines it, and `ReplaceFirstSpec` characterises it.
- `Decimal`:
  - the `${n}` rendering of numbers, with its inverse `DigitsValue` and a parser for years;
  - the zero-padded fields `("0" + n).slice(-2)` and `("00" + n).slice(-3)`.
- `DateFormat`:
  - `getDate` as `RenderDate(format, fields)`; the calendar fields of the `Date` are a parameter;
  - the two patterns the logger itself uses: the default one and the file-name day.
- `DatePatterns`: the patterns the test suite renders, each worked out for every instant. They are a day-first pattern, a pattern with the tokens out of order and one token repeated, and each token alone. Regrouping a concatenation is one fact. Here and in `DateFormat` and `Logging`, it is stated in small lemmas of fixed arity (`Split14At0` … `Split14At12`, `Flatten6`, `Regroup6`, `RegroupLine`, and so on). Each one is a single cheap step for the solver, which keeps the long per-pattern proofs within the resource limit.
- `Logging`:
  - the configuration and the constructor's object spread;
  - the two lines of a message;
  - `Log`, one call of `log`. Its effect is on a `World` made of a map from file paths to contents and the list of printed lines.
- `Trace`: a sequence of calls. Its effect on the console and on every file is stated against reference definitions (`Printed`, `Appended`) that read the calls from the last one back.

The clock is read twice per written message:

- once in `log` to date the line (`src/index.ts:80`);
- once again in `writeLog` to name the file (`src/index.ts:101`).

A single reading per call would be the simpler reading of the library's design. The model follows the code: `Log` takes both readings, `stamp` and `day`. `Logging.OneReadingLineMatchesFile` states what a single reading would give under the default pattern: the file line opens with the day stamp of that same reading, the stamp that would name the file. `Logging.WrittenLineDatedByStamp` states what the code does instead: the line opens with the day of the first reading, whatever day names the file.

## Model

| member | source | states |
|---|---|---|
| Strings.ReplaceFirst | src/index.ts:131-138 | `replace` with a string pattern. It has no contract of its own: `ReplaceFirstSpec` characterises it, and `ReplaceFirstAfter` and `ReplaceOrDrop` are consequences. |
| Strings.ReplaceFirstSpec | src/index.ts:131-138 | A string-pattern `replace` returns the text unchanged when the pattern does not occur. Otherwise it splices the replacement in at the leftmost occurrence and keeps everything else. |
| Strings.ReplaceFirstAfter | src/index.ts:131-138 | When the pattern's first character does not appear before an occurrence, that occurrence is the one replaced. |
| Strings.ReplaceAbsent | src/index.ts:131-138 | A pattern whose first character does not appear in the text leaves the text unchanged. |
| Strings.ReplaceOrDrop | src/index.ts:87-95 | Take the leftmost occurrence of the pattern, at index `i`. Replacing it with `rep` equals deleting it and inserting `rep` at `i`, where it stood. |
| Decimal.NatToString | src/index.ts:123-129 | `${n}` yields at least one decimal digit. The digits denote `n`, and there is no leading zero. |
| Decimal.IntToString | src/index.ts:123 | `${date.getFullYear()}` is unpadded decimal. Every character is a digit, except a leading minus sign, which appears exactly when the year is negative. There is no leading zero and no `-0`. `IntToStringRoundTrip` gives its inverse. |
| Decimal.Last | src/index.ts:124-129 | `slice(-k)` keeps the last `k` characters, or the whole string when it is shorter. For `k = 0` it keeps the whole string, since `-0` is the start index 0. `LastValue` states what those digits denote. |
| Decimal.IntToStringRoundTrip | src/index.ts:123 | The year rendering parses back to the same integer, negative years included. So distinct years render differently. |
| Decimal.LastValue | src/index.ts:124-129 | For `k > 0`, `slice(-k)` on a numeral of at least `k` digits keeps digits that denote the value modulo 10^k. For `k = 0`, it keeps the numeral's whole value. |
| Decimal.Pad2 | src/index.ts:124-128 | `("0" + n).slice(-2)` is exactly two digits denoting `n % 100`, hence `n` itself for every month, day, hour, minute and second. |
| Decimal.Pad3 | src/index.ts:129 | `("00" + n).slice(-3)` is exactly three digits denoting `n % 1000`, hence `n` itself for every millisecond. |
| DateFormat.RenderDate | src/index.ts:120-139 | `getDate(format)` over the calendar fields of one instant. It has no contract of its own: `RenderTokenFree`, `ChainStep`, `RenderDefaultFormat`, `RenderDayFormat` and `DayStampSameDay` characterise it. |
| DateFormat.RenderTokenFree | src/index.ts:131-138 | A pattern holding none of the seven tokens comes back unchanged. |
| DateFormat.ChainStep | src/index.ts:131-138 | After text free of token letters, the next token is the one replaced. The text produced stays free of token letters. |
| DateFormat.RenderDefaultFormat | src/index.ts:120-139 | With no pattern, `getDate` yields `<year>-<MM>-<dd> <HH>:<mm>:<ss>.<SSS>`, and that text holds no token letter or underscore. |
| DateFormat.RenderDayFormat | src/index.ts:120-139 | The file-name pattern `yyyy-MM-dd` (used at line 101) yields `<year>-<MM>-<dd>`. |
| DateFormat.DefaultStartsWithDay | src/index.ts:120-139 | For one instant, the day stamp is a prefix of the default rendering. |
| DateFormat.DayStampSameDay | src/index.ts:101-102 | Two valid instants give the same day stamp if and only if they share year, month and day. |
| DatePatterns.RenderDayFirstFormat | tests/index.test.ts:141-158 | `getDate("dd/MM/yyyy HH:mm:ss.SSS")` is `<dd>/<MM>/<year> <HH>:<mm>:<ss>.<SSS>` for every instant, although the year token comes after the day and month tokens. |
| DatePatterns.RenderRepeatedFormat | tests/index.test.ts:160-180 | Tokens out of order are each replaced where they stand. The second `'yyyy'` is left as it is, because each token is replaced once. |
| DatePatterns.RenderTokenAlone | tests/index.test.ts:183-510 | Each token on its own renders as its field alone: the year, or the two- or three-digit padded field. |
| Logging.ColorCode | src/index.ts:10-15 | Each level's colour is a five-character select graphic rendition escape, `ESC [ 3 n m`, setting a standard foreground colour. |
| Logging.ColorCodesDistinct | src/index.ts:10-15 | Two levels share a colour if and only if they are the same level. |
| Logging.Merge | src/index.ts:63-66 | `{ ...base, ...arg }` field by field. A key present in the argument wins, even when it holds `undefined`. An absent key keeps the base value. |
| Logging.MergeNoKeys | src/index.ts:65 | Spreading an object with no keys leaves the configuration unchanged. |
| Logging.MergeAllKeys | src/index.ts:65 | Spreading an object that sets every key yields that object, whatever the base. |
| Logging.MergeIdempotent | src/index.ts:65 | Spreading the same argument twice is spreading it once. |
| Logging.NewLogger | src/index.ts:31-66 | Per key: the argument's value when the argument has that key, even if it holds `undefined`. Otherwise the default: `"App"`, the default pattern, all four levels shown, `info`/`warn`/`error` written, `"./logs"`. |
| Logging.GetConfigRoundTrip | tests/index.test.ts:21-25 | `getConfig()` on a logger built from an object setting every key returns that object. |
| Logging.GetConfigDefaults | src/index.ts:31-37 | A logger built without an argument, or from `{}`, reports the defaults. |
| Logging.RenderLines | src/index.ts:83-96 | The console line is the level's colour, then the file line with the reset escape inserted at one position. This holds for any name, date text and message. |
| Logging.FileLineShape | src/index.ts:83-88 | When the date text and the name do not contain the reset marker, the file line is `<datetime> [<name>] - <level>: <message>`. |
| Logging.ConsoleLineShape | src/index.ts:91-96 | Under the same condition, the console line is `<colour><datetime> [<name>] - <level>:<reset> <message>`. |
| Logging.OneReadingLineMatchesFile | src/index.ts:100-102 | With one clock reading and the default pattern, the file line starts with the day stamp that names the file. |
| Logging.FilePath | src/index.ts:101-102 | `<path>/<name>/<yyyy-MM-dd>.log` for the day `writeLog` reads. It has no contract of its own: `RenderDayFormat` fixes the day part, and `Trace.SameFileSameDay` states when two calls share a file. |
| Logging.AppendTo | src/index.ts:105 | Appending with flag `a+` puts the text after what the file holds, creates a missing file, and leaves every other file as it was. |
| Logging.Log | src/index.ts:77-106 | A written level appends the file line and `\r\n` to the day's file and creates the file if missing. Every other file is untouched. The console gains the console line if and only if the level is shown. |
| Logging.WrittenLineDatedByStamp | src/index.ts:77-105 | As written, under the default pattern, the file named after the `writeLog` reading receives a line that opens with the day stamp of the earlier `log` reading. For valid readings on different calendar days, that stamp differs from the one naming the file. |
| Logging.LevelLine | src/index.ts:85-96 | A printed line is added after the earlier ones and opens with the colour of its level. A level that is not written leaves every file as it was. |
| Logging.LogInfo | src/index.ts:153-155 | When `info` is written, `info` appends the message's file line and `\r\n` to the day's file; otherwise no file changes. When `info` is shown, it prints exactly one line, the message's console line, which opens with blue. Otherwise it prints nothing. |
| Logging.LogWarn | src/index.ts:165-167 | When `warn` is written, `warn` appends the message's file line and `\r\n` to the day's file; otherwise no file changes. When `warn` is shown, it prints exactly one line, the message's console line, which opens with yellow. Otherwise it prints nothing. |
| Logging.LogError | src/index.ts:177-179 | When `error` is written, `error` appends the message's file line and `\r\n` to the day's file; otherwise no file changes. When `error` is shown, it prints exactly one line, the message's console line, which opens with red. Otherwise it prints nothing. |
| Logging.LogVerbose | src/index.ts:189-191 | When `verbose` is written, `verbose` appends the message's file line and `\r\n` to the day's file; otherwise no file changes. When `verbose` is shown, it prints exactly one line, the message's console line, which opens with magenta. Otherwise it prints nothing. |
| Trace.StepConsole | src/index.ts:91-97 | One call adds to the console exactly what the reference `PrintedBy` says. |
| Trace.StepFiles | src/index.ts:85-89 | One call adds to each file exactly what the reference `AppendedBy` says. A file exists afterwards if and only if it existed before or the call wrote to it. |
| Trace.RunSnoc | src/index.ts:77-106 | Running one more call is one more step after the earlier calls. |
| Trace.RunConsole | src/index.ts:91-97 | After any sequence of calls, the console holds what it held before, then the lines of the shown calls in call order. |
| Trace.RunFiles | tests/index.test.ts:806-843 | After any sequence of calls, each file holds its old contents, then the lines of the written calls that name it, in call order. A file exists if and only if it existed or received a line. |
| Trace.Silent | tests/index.test.ts:730-804 | With `showLevel` and `writeLevel` empty or `undefined`, nothing is printed and no file is created or changed. |
| Trace.SameFileSameDay | src/index.ts:101-102 | Two calls write to the same file if and only if `writeLog` read the same calendar day for both. |
| Trace.DayChange | tests/index.test.ts:845-877 | Two written calls on different days, starting from no files, leave two files, each holding exactly its own call's line. |
| Trace.SameDayAppends | src/index.ts:101-105 | Two written calls whose `writeLog` readings fall on the same calendar day, at any times, leave one file holding the first line, then the second, each ended by `\r\n`. |
| Trace.SilentLogger | tests/index.test.ts:768-804 | A logger built with `showLevel` and `writeLevel` given as `undefined` changes nothing, whatever calls it receives. |

## Left out

- File system and console I/O:
  - `fs.mkdirSync` and `fs.writeFileSync` become an update of the `files` map;
  - `console.log` becomes appending to the `console` list;
  - I/O errors and directory creation are not modelled.
- Clock reads become parameters: `Date.now()` and the local-time fields of `Date` (time zone, calendar arithmetic). A call takes the two readings as `DateFields`, and `ValidDate` states the ranges a `Date` yields.
- `String.prototype.replace` interprets `$` sequences in the replacement text. That is not modelled: none of the replacement strings (rendered fields, colour escapes, the empty string) contains `$`.
- The constructor's `if (config)` is modelled as "argument given or not". Other falsy arguments (`null`) are excluded by the parameter's type.
- The configuration is a value. In the source, `getConfig` returns the live configuration object, and the spread is shallow. So the `showLevel` and `writeLevel` arrays stay shared with the caller, and mutating them after construction changes later routing. The model's `Logger` is immutable, and `Trace.Run` keeps the configuration fixed across calls.
- Date fields are integers here, but JavaScript numbers are doubles. `${n}` agrees with `NatToString` and `IntToString` only below 10^21; from there on JavaScript writes an exponent (`1e+21`). A `Date` keeps every field far below that: years lie within ±275 760. `DateFields.year` itself is unbounded, and `ValidDate` only bounds the other fields.
- Strings are Dafny strings, sequences of Unicode scalar values. JavaScript strings are UTF-16 code units. A message holding a lone surrogate therefore has no counterpart here, and `writeFileSync` would write it as U+FFFD.
- Keys outside the five configuration fields are not modelled. The spread would copy them into the configuration, and `getConfig` would report them.
- Logging.GetConfig: carries no contract of its own. It returns the stored configuration, and `GetConfigRoundTrip` and `GetConfigDefaults` state what that configuration is.
- Logging.FileLineShape: stated only when neither the rendered date nor the name contains `__LOGGER_RESET_COLOR__`. When one does, `log` cuts that earlier occurrence instead. For those inputs `RenderLines` and `ReplaceOrDrop` still describe the result, but not its exact text.
- Logging.ConsoleLineShape: stated under the same condition as `FileLineShape`, for the same reason.
- Concrete test values (e.g. year 2022 rendering as `2022`, or millisecond 32 as `032`) are not proved one by one. The patterns they exercise are proved for every instant, and `Pad2`, `Pad3` and `NatToString` pin the digits down by their value.
- The `Ordre des logs` test runs 10 000 iterations. `RunFiles` states its content for any number of calls.

=== FILE: dateformat.dfy ===
/** `getDate`: the date-pattern renderer. The calendar fields are read from
    the clock by the caller; the pattern is rewritten by a fixed chain of
    first-occurrence replacements. */
module DateFormat {
  import opened Strings
  import opened Decimal

  /** The local-time fields `getDate` reads from a `Date`: `getFullYear()`,
      `getMonth() + 1`, `getDate()`, `getHours()`, `getMinutes()`,
      `getSeconds()` and `getMilliseconds()`. */
  datatype DateFields = DateFields(
    year: int,
    month: nat,
    day: nat,
    hour: nat,
    minute: nat,
    second: nat,
    millisecond: nat)

  /** The ranges a JavaScript `Date` yields for those fields. */
  predicate ValidDate(d: DateFields) {
    && 1 <= d.month <= 12
    && 1 <= d.day <= 31
    && d.hour < 24
    && d.minute < 60
    && d.second < 60
    && d.millisecond < 1000
  }

  /** The pattern `getDate` falls back to when called without one. */
  const DefaultFormat: string := "yyyy-MM-dd HH:mm:ss.SSS"

  /** The pattern that names a day's log file. */
  const DayFormat: string := "yyyy-MM-dd"

  /** None of the seven tokens occurs in `format`. */
  ghost predicate TokenFree(format: string) {
    && !Contains(format, "yyyy")
    && !Contains(format, "MM")
    && !Contains(format, "dd")
    && !Contains(format, "HH")
    && !Contains(format, "mm")
    && !Contains(format, "ss")
    && !Contains(format, "SSS")
  }

  /** Text made of digits and minus signs only: what the rendered fields are. */
  predicate Numeric(s: string) {
    forall i | 0 <= i < |s| :: IsDigit(s[i]) || s[i] == '-'
  }

  /** `getDate(format)` at the instant whose calendar fields are `d`: each
      token is replaced at its first occurrence only, in the order yyyy, MM,
      dd, HH, mm, ss, SSS. */
  function RenderDate(format: string, d: DateFields): string {
    var s1 := ReplaceFirst(format, "yyyy", IntToString(d.year));
    var s2 := ReplaceFirst(s1, "MM", Pad2(d.month));
    var s3 := ReplaceFirst(s2, "dd", Pad2(d.day));
    var s4 := ReplaceFirst(s3, "HH", Pad2(d.hour));
    var s5 := ReplaceFirst(s4, "mm", Pad2(d.minute));
    var s6 := ReplaceFirst(s5, "ss", Pad2(d.second));
    ReplaceFirst(s6, "SSS", Pad3(d.millisecond))
  }

  /** A pattern without tokens is returned as it is. */
  lemma RenderTokenFree(format: string, d: DateFields)
    requires TokenFree(format)
    ensures RenderDate(format, d) == format
  {
    ReplaceFirstSpec(format, "yyyy", IntToString(d.year));
    ReplaceFirstSpec(format, "MM", Pad2(d.month));
    ReplaceFirstSpec(format, "dd", Pad2(d.day));
    ReplaceFirstSpec(format, "HH", Pad2(d.hour));
    ReplaceFirstSpec(format, "mm", Pad2(d.minute));
    ReplaceFirstSpec(format, "ss", Pad2(d.second));
    ReplaceFirstSpec(format, "SSS", Pad3(d.millisecond));
  }

  /** Every field rendering is numeric, so it contains no token letter. */
  lemma FieldsNumeric(d: DateFields)
    ensures Numeric(IntToString(d.year))
    ensures Numeric(Pad2(d.month)) && Numeric(Pad2(d.day)) && Numeric(Pad2(d.hour))
    ensures Numeric(Pad2(d.minute)) && Numeric(Pad2(d.second))
    ensures Numeric(Pad3(d.millisecond))
  {
  }

  /** Text in which no token can start: none of its characters is a token's
      first letter, nor the underscore the logger's markers start with. */
  predicate Inert(s: string) {
    forall i | 0 <= i < |s| :: s[i] !in "yMdHmsS_"
  }

  /** One link of the replacement chain: after the inert text `a` already
      produced, the next token is the leftmost one, and it is replaced by the
      numeric field `v`, which keeps the produced text inert. */
  lemma ChainStep(a: string, sep: string, tok: string, v: string, tail: string)
    requires Inert(a) && Inert(sep) && Numeric(v)
    requires |tok| > 0 && tok[0] in "yMdHmsS"
    ensures ReplaceFirst(a + (sep + tok + tail), tok, v) == a + sep + v + tail
    ensures Inert(a + sep + v)
  {
    ReplaceFirstAdvance(a, sep, tok, v, sep + tok + tail, tail);
    assert Inert(a + sep + v) by {
      var t := a + sep + v;
      forall i | 0 <= i < |t|
        ensures t[i] !in "yMdHmsS_"
      {
        if i < |a| {
          assert t[i] == a[i];
        } else if i < |a| + |sep| {
          assert t[i] == sep[i - |a|];
        } else {
          assert t[i] == v[i - |a| - |sep|];
        }
      }
    }
  }

  /** The first link: the year token opens the default pattern. */
  lemma DefaultYearStep(y: string)
    ensures ReplaceFirst(DefaultFormat, "yyyy", y)
         == y + ("-" + "MM" + ("-" + "dd" + (" " + "HH" + (":" + "mm" + (":" + "ss" + ("." + "SSS" + ""))))))
  {
    var r1 := "-" + "MM" + ("-" + "dd" + (" " + "HH" + (":" + "mm" + (":" + "ss" + ("." + "SSS" + "")))));
    assert DefaultFormat == "yyyy" + r1;
    ReplaceFirstAtStart("yyyy", y, r1);
  }

  /** A rendered field holds none of the tokens' letters. */
  lemma NumericInert(s: string)
    requires Numeric(s)
    ensures Inert(s)
    ensures 'y' !in s && 'M' !in s && 'd' !in s && 'H' !in s && 'm' !in s && 's' !in s && 'S' !in s
  {
  }

  lemma DefaultChain(y: string, mo: string, dd: string, hh: string, mi: string, ss: string, ms: string)
    requires Numeric(y) && Numeric(mo) && Numeric(dd) && Numeric(hh) && Numeric(mi) && Numeric(ss) && Numeric(ms)
    ensures
      var s1 := ReplaceFirst(DefaultFormat, "yyyy", y);
      var s2 := ReplaceFirst(s1, "MM", mo);
      var s3 := ReplaceFirst(s2, "dd", dd);
      var s4 := ReplaceFirst(s3, "HH", hh);
      var s5 := ReplaceFirst(s4, "mm", mi);
      var s6 := ReplaceFirst(s5, "ss", ss);
      ReplaceFirst(s6, "SSS", ms) == y + "-" + mo + "-" + dd + " " + hh + ":" + mi + ":" + ss + "." + ms
    ensures Inert(y + "-" + mo + "-" + dd + " " + hh + ":" + mi + ":" + ss + "." + ms)
  {
    var r6 := "." + "SSS" + "";
    var r5 := ":" + "ss" + r6;
    var r4 := ":" + "mm" + r5;
    var r3 := " " + "HH" + r4;
    var r2 := "-" + "dd" + r3;
    var r1 := "-" + "MM" + r2;
    DefaultYearStep(y);
    NumericInert(y);
    ChainStep(y, "-", "MM", mo, r2);
    var a2 := y + "-" + mo;
    ChainStep(a2, "-", "dd", dd, r3);
    var a3 := a2 + "-" + dd;
    ChainStep(a3, " ", "HH", hh, r4);
    var a4 := a3 + " " + hh;
    ChainStep(a4, ":", "mm", mi, r5);
    var a5 := a4 + ":" + mi;
    ChainStep(a5, ":", "ss", ss, r6);
    var a6 := a5 + ":" + ss;
    ChainStep(a6, ".", "SSS", ms, "");
    assert a6 + "." + ms + "" == a6 + "." + ms;
  }

  /** With no pattern argument, `getDate` yields
      `<year>-<MM>-<dd> <HH>:<mm>:<ss>.<SSS>`, e.g. `2022-01-01 01:01:01.001`. */
  lemma RenderDefaultFormat(d: DateFields)
    ensures RenderDate(DefaultFormat, d)
         == IntToString(d.year) + "-" + Pad2(d.month) + "-" + Pad2(d.day) + " "
            + Pad2(d.hour) + ":" + Pad2(d.minute) + ":" + Pad2(d.second) + "." + Pad3(d.millisecond)
    ensures Inert(RenderDate(DefaultFormat, d))
  {
    FieldsNumeric(d);
    DefaultChain(IntToString(d.year), Pad2(d.month), Pad2(d.day), Pad2(d.hour), Pad2(d.minute), Pad2(d.second), Pad3(d.millisecond));
  }

  /** A token cannot occur in inert text, so replacing it changes nothing. */
  lemma InertUnchanged(s: string, tok: string, v: string)
    requires Inert(s) && |tok| > 0 && tok[0] in "yMdHmsS"
    ensures ReplaceFirst(s, tok, v) == s
  {
    ReplaceAbsent(s, tok, v);
  }

  /** The first link for the file-name pattern. */
  lemma DayYearStep(y: string)
    ensures ReplaceFirst(DayFormat, "yyyy", y) == y + ("-" + "MM" + ("-" + "dd" + ""))
  {
    var r1 := "-" + "MM" + ("-" + "dd" + "");
    assert DayFormat == "yyyy" + r1;
    ReplaceFirstAtStart("yyyy", y, r1);
  }

  lemma DayChain(y: string, mo: string, dd: string, hh: string, mi: string, ss: string, ms: string)
    requires Numeric(y) && Numeric(mo) && Numeric(dd)
    ensures
      var s1 := ReplaceFirst(DayFormat, "yyyy", y);
      var s2 := ReplaceFirst(s1, "MM", mo);
      var s3 := ReplaceFirst(s2, "dd", dd);
      var s4 := ReplaceFirst(s3, "HH", hh);
      var s5 := ReplaceFirst(s4, "mm", mi);
      var s6 := ReplaceFirst(s5, "ss", ss);
      ReplaceFirst(s6, "SSS", ms) == y + "-" + mo + "-" + dd
  {
    var r2 := "-" + "dd" + "";
    var r1 := "-" + "MM" + r2;
    DayYearStep(y);
    NumericInert(y);
    ChainStep(y, "-", "MM", mo, r2);
    var a2 := y + "-" + mo;
    ChainStep(a2, "-", "dd", dd, "");
    var a3 := a2 + "-" + dd;
    assert a3 + "" == a3;
    InertUnchanged(a3, "HH", hh);
    InertUnchanged(a3, "mm", mi);
    InertUnchanged(a3, "ss", ss);
    InertUnchanged(a3, "SSS", ms);
  }

  /** The day stamp that names a log file: `<year>-<MM>-<dd>`. */
  lemma RenderDayFormat(d: DateFields)
    ensures RenderDate(DayFormat, d) == IntToString(d.year) + "-" + Pad2(d.month) + "-" + Pad2(d.day)
  {
    FieldsNumeric(d);
    DayChain(IntToString(d.year), Pad2(d.month), Pad2(d.day), Pad2(d.hour), Pad2(d.minute), Pad2(d.second), Pad3(d.millisecond));
  }

  /** Under the default pattern the rendered date opens with the day stamp
      of the same instant. */
  lemma DefaultStartsWithDay(d: DateFields)
    ensures RenderDate(DayFormat, d) <= RenderDate(DefaultFormat, d)
  {
    RenderDefaultFormat(d);
    RenderDayFormat(d);
    var day := IntToString(d.year) + "-" + Pad2(d.month) + "-" + Pad2(d.day);
    var time := " " + Pad2(d.hour) + ":" + Pad2(d.minute) + ":" + Pad2(d.second) + "." + Pad3(d.millisecond);
    Regroup(day, " ", Pad2(d.hour), ":", Pad2(d.minute), ":", Pad2(d.second), ".", Pad3(d.millisecond));
    PrefixExtend(day, day, time);
  }

  lemma Regroup(x: string, a: string, b: string, c: string, d: string, e: string, f: string, g: string, h: string)
    ensures x + a + b + c + d + e + f + g + h == x + (a + b + c + d + e + f + g + h)
  {
  }

  /** A stamp `<y>-<m>-<d>` with two-character `m` and `d` splits back into
      its parts. */
  lemma DayStampSplit(y1: string, m1: string, d1: string, y2: string, m2: string, d2: string)
    requires |m1| == 2 && |d1| == 2 && |m2| == 2 && |d2| == 2
    requires y1 + "-" + m1 + "-" + d1 == y2 + "-" + m2 + "-" + d2
    ensures y1 == y2 && m1 == m2 && d1 == d2
  {
    var s := y1 + "-" + m1 + "-" + d1;
    var t := y2 + "-" + m2 + "-" + d2;
    assert y1 == s[..|s| - 6] && y2 == t[..|t| - 6];
    assert m1 == s[|s| - 5..|s| - 3] && m2 == t[|t| - 5..|t| - 3];
    assert d1 == s[|s| - 2..] && d2 == t[|t| - 2..];
  }

  /** Two-digit padding loses nothing below 100. */
  lemma Pad2Injective(a: nat, b: nat)
    requires a < 100 && b < 100 && Pad2(a) == Pad2(b)
    ensures a == b
  {
    SmallMod(a, 100);
    SmallMod(b, 100);
  }

  lemma SmallMod(a: nat, m: nat)
    requires a < m
    ensures a % m == a
  {
  }

  /** Two instants share a day stamp exactly when they fall on the same
      calendar day: the stamp determines year, month and day, and nothing
      else. */
  lemma DayStampSameDay(d1: DateFields, d2: DateFields)
    requires ValidDate(d1) && ValidDate(d2)
    ensures RenderDate(DayFormat, d1) == RenderDate(DayFormat, d2)
        <==> (d1.year, d1.month, d1.day) == (d2.year, d2.month, d2.day)
  {
    RenderDayFormat(d1);
    RenderDayFormat(d2);
    if RenderDate(DayFormat, d1) == RenderDate(DayFormat, d2) {
      DayStampSplit(IntToString(d1.year), Pad2(d1.month), Pad2(d1.day),
                    IntToString(d2.year), Pad2(d2.month), Pad2(d2.day));
      Pad2Injective(d1.month, d2.month);
      Pad2Injective(d1.day, d2.day);
      IntToStringRoundTrip(d1.year);
      IntToStringRoundTrip(d2.year);
    }
  }
}

=== FILE: decimal.dfy ===
/** Decimal rendering of numbers, as JavaScript's template literals produce
    it, and the fixed-width, zero-padded fields built from it with
    `("0" + n).slice(-2)` and `("00" + n).slice(-3)`. */
module Decimal {
  import opened Options

  predicate IsDigit(c: char) {
    '0' <= c <= '9'
  }

  predicate AllDigits(s: string) {
    forall i | 0 <= i < |s| :: IsDigit(s[i])
  }

  function DigitValue(c: char): nat
    requires IsDigit(c)
  {
    c as int - '0' as int
  }

  function DigitChar(d: nat): (c: char)
    requires d < 10
    ensures IsDigit(c) && DigitValue(c) == d
  {
    ('0' as int + d) as char
  }

  function Pow10(k: nat): (r: nat)
    ensures r >= 1
  {
    if k == 0 then 1 else 10 * Pow10(k - 1)
  }

  /** The number a string of decimal digits denotes, most significant digit
      first; the empty string denotes 0. This is the inverse every rendering
      below is checked against. */
  function DigitsValue(s: string): nat
    requires AllDigits(s)
  {
    if |s| == 0 then 0 else DigitsValue(s[..|s| - 1]) * 10 + DigitValue(s[|s| - 1])
  }

  /** `${n}` for a non-negative integer: its shortest decimal form. */
  function NatToString(n: nat): (s: string)
    ensures 1 <= |s| && AllDigits(s)
    ensures DigitsValue(s) == n
    ensures 1 < |s| ==> s[0] != '0'
  {
    if n < 10 then [DigitChar(n)]
    else
      var prefix := NatToString(n / 10);
      var s := prefix + [DigitChar(n % 10)];
      assert s[..|s| - 1] == prefix;
      s
  }

  /** `${y}` for an integer year: unpadded, with a minus sign exactly before
      negative values, and no `-0`. */
  function IntToString(y: int): (s: string)
    ensures 1 <= |s|
    ensures forall i | 0 <= i < |s| :: IsDigit(s[i]) || (i == 0 && s[i] == '-')
    ensures s[0] == '-' <==> y < 0
    ensures 1 < |s| && s[0] != '-' ==> s[0] != '0'
    ensures s[0] == '-' ==> 1 < |s| && s[1] != '0'
  {
    if y < 0 then
      var digits := NatToString(-y);
      var s := "-" + digits;
      assert s[1..] == digits;
      s
    else NatToString(y)
  }

  /** Reads back an optionally signed decimal integer; `None` for anything
      else. */
  function ParseInt(s: string): Option<int> {
    if 1 < |s| && s[0] == '-' && AllDigits(s[1..]) then Some(-(DigitsValue(s[1..]) as int))
    else if 1 <= |s| && AllDigits(s) then Some(DigitsValue(s))
    else None
  }

  /** The year rendering loses nothing: it parses back to the same integer,
      hence distinct years render differently. */
  lemma IntToStringRoundTrip(y: int)
    ensures ParseInt(IntToString(y)) == Some(y)
  {
    if y < 0 {
      assert IntToString(y)[1..] == NatToString(-y);
    }
  }

  /** `str.slice(-k)`: the last `k` characters, or all of them when there
      are fewer. For `k == 0` the start `-0` is the index 0, so the whole
      string comes back. */
  function Last(s: string, k: nat): (r: string)
    ensures |r| == if k == 0 || |s| <= k then |s| else k
    ensures r == s[|s| - |r|..]
  {
    if k == 0 || |s| <= k then s else s[|s| - k..]
  }

  lemma {:induction false} DigitsValueBound(s: string)
    requires AllDigits(s)
    ensures DigitsValue(s) < Pow10(|s|)
  {
    if |s| > 0 {
      DigitsValueBound(s[..|s| - 1]);
    }
  }

  lemma {:induction false} DigitsValueConcat(a: string, b: string)
    requires AllDigits(a) && AllDigits(b)
    ensures AllDigits(a + b)
    ensures DigitsValue(a + b) == DigitsValue(a) * Pow10(|b|) + DigitsValue(b)
    decreases |b|
  {
    var s := a + b;
    if |b| > 0 {
      assert s[..|s| - 1] == a + b[..|b| - 1];
      DigitsValueConcat(a, b[..|b| - 1]);
      ShiftDigit(DigitsValue(a), Pow10(|b| - 1), DigitsValue(b[..|b| - 1]), DigitValue(b[|b| - 1]));
    } else {
      assert s == a;
    }
  }

  /** Appending a digit multiplies the value by ten. */
  lemma ShiftDigit(x: int, p: int, y: int, z: int)
    ensures (x * p + y) * 10 + z == x * (10 * p) + (y * 10 + z)
  {
  }

  /** The last `k` digits of a numeral are the remainder left after the
      multiple of 10^k that the leading digits denote. */
  lemma SuffixValue(s: string, k: nat)
    requires AllDigits(s) && k <= |s|
    ensures AllDigits(s[..|s| - k]) && AllDigits(s[|s| - k..])
    ensures DigitsValue(s) == DigitsValue(s[..|s| - k]) * Pow10(k) + DigitsValue(s[|s| - k..])
    ensures DigitsValue(s[|s| - k..]) < Pow10(k)
  {
    var pre, suf := s[..|s| - k], s[|s| - k..];
    assert s == pre + suf;
    assert AllDigits(pre) && AllDigits(suf);
    DigitsValueConcat(pre, suf);
    assert |suf| == k;
    DigitsValueBound(suf);
  }

  /** Leading zeros do not change the value of a numeral. */
  lemma LeadingZeros(z: string, s: string)
    requires AllDigits(s) && forall i | 0 <= i < |z| :: z[i] == '0'
    ensures AllDigits(z + s) && DigitsValue(z + s) == DigitsValue(s)
  {
    DigitsValueConcat(z, s);
    ZerosValue(z);
  }

  lemma {:induction false} ZerosValue(z: string)
    requires forall i | 0 <= i < |z| :: z[i] == '0'
    ensures AllDigits(z) && DigitsValue(z) == 0
  {
    if |z| > 0 {
      ZerosValue(z[..|z| - 1]);
    }
  }

  /** Euclidean division has a unique remainder. */
  lemma ModUnique(x: int, q: int, r: int, m: int)
    requires m > 0 && 0 <= r < m && x == q * m + r
    ensures x % m == r
  {
    var q', r' := x / m, x % m;
    assert (q - q') * m == r' - r;
    if q > q' {
      MulAtLeast(q - q', m);
    } else if q < q' {
      MulAtLeast(q' - q, m);
    }
  }

  lemma MulAtLeast(a: int, m: int)
    requires a >= 1 && m > 0
    ensures a * m >= m
  {
  }

  /** The last `k` digits of a numeral of at least `k` digits denote its
      value modulo 10^k; `slice(-0)` keeps the whole numeral instead. */
  lemma LastValue(s: string, k: nat)
    requires AllDigits(s) && k <= |s|
    ensures AllDigits(Last(s, k))
    ensures 0 < k ==> DigitsValue(Last(s, k)) == DigitsValue(s) % Pow10(k)
    ensures k == 0 ==> DigitsValue(Last(s, k)) == DigitsValue(s)
  {
    if 0 < k {
      SuffixValue(s, k);
      ModUnique(DigitsValue(s), DigitsValue(s[..|s| - k]), DigitsValue(s[|s| - k..]), Pow10(k));
    }
  }

  /** `("0" + n).slice(-2)`, used for month, day, hour, minute and second:
      always two digits, denoting `n` itself whenever `n < 100`, and only its
      last two digits otherwise. */
  function Pad2(n: nat): (r: string)
    ensures |r| == 2 && AllDigits(r)
    ensures DigitsValue(r) == n % 100
  {
    var s := "0" + NatToString(n);
    LeadingZeros("0", NatToString(n));
    LastValue(s, 2);
    assert Pow10(2) == 100;
    Last(s, 2)
  }

  /** `("00" + n).slice(-3)`, used for milliseconds: always three digits,
      denoting `n % 1000`. */
  function Pad3(n: nat): (r: string)
    ensures |r| == 3 && AllDigits(r)
    ensures DigitsValue(r) == n % 1000
  {
    var s := "00" + NatToString(n);
    LeadingZeros("00", NatToString(n));
    LastValue(s, 3);
    assert Pow10(3) == 1000;
    Last(s, 3)
  }
}

=== FILE: logger.dfy ===
/** The `Logger` class: its configuration, the two lines `log` builds from
    one message, and the effect of one call on the log files and the
    console. The file system and the console are a value (`World`); the two
    clock readings of a call are parameters. */
module Logging {
  import opened Options
  import opened Strings
  import opened DateFormat

  /** The four levels a message can be logged at. */
  datatype Level = Info | Warn | Error | Verbose

  /** The level as it is written in a line. */
  function LevelName(l: Level): string {
    match l
    case Info => "info"
    case Warn => "warn"
    case Error => "error"
    case Verbose => "verbose"
  }

  /** `ColorLevel`: the ANSI escape that colours a console line, a select
      graphic rendition setting one of the standard foreground colours. */
  function ColorCode(l: Level): (r: string)
    ensures |r| == 5 && r[..3] == "\U{1B}[3" && '0' <= r[3] <= '7' && r[4] == 'm'
  {
    match l
    case Error => "\U{1B}[31m"
    case Warn => "\U{1B}[33m"
    case Info => "\U{1B}[34m"
    case Verbose => "\U{1B}[35m"
  }

  /** Each level has a colour of its own. */
  lemma ColorCodesDistinct(l1: Level, l2: Level)
    ensures ColorCode(l1) == ColorCode(l2) <==> l1 == l2
  {
  }

  /** Placeholders in the raw line, and the escape that ends a colour. */
  const ColorMarker: string := "__LOGGER_COLOR__"
  const ResetMarker: string := "__LOGGER_RESET_COLOR__"
  const ResetColor: string := "\U{1B}[0m"

  /** Terminates every line appended to a log file. */
  const LineEnd: string := "\r\n"

  // ---------------------------------------------------------------------
  // Configuration
  // ---------------------------------------------------------------------

  /** The logger's configuration object. Each field is `None` when the key
      holds `undefined`. */
  datatype Config = Config(
    name: Option<string>,
    dateFormat: Option<string>,
    showLevel: Option<seq<Level>>,
    writeLevel: Option<seq<Level>>,
    path: Option<string>)

  /** The configuration a logger starts from. */
  const Defaults: Config := Config(
    Some("App"),
    Some(DefaultFormat),
    Some([Info, Warn, Error, Verbose]),
    Some([Info, Warn, Error]),
    Some("./logs"))

  /** The object given to the constructor. The outer `Option` says whether
      the key is present at all; a present key may still hold `undefined`. */
  datatype ConfigArg = ConfigArg(
    name: Option<Option<string>>,
    dateFormat: Option<Option<string>>,
    showLevel: Option<Option<seq<Level>>>,
    writeLevel: Option<Option<seq<Level>>>,
    path: Option<Option<string>>)

  /** An argument object without any key: `{}`. */
  const NoKeys: ConfigArg := ConfigArg(None, None, None, None, None)

  /** The argument object that spells out every key of `c`. */
  function AllKeys(c: Config): ConfigArg {
    ConfigArg(Some(c.name), Some(c.dateFormat), Some(c.showLevel), Some(c.writeLevel), Some(c.path))
  }

  /** `{ ...base, ...arg }` for one key. */
  function Spread<T>(base: Option<T>, key: Option<Option<T>>): Option<T> {
    key.GetOr(base)
  }

  /** `{ ...base, ...arg }`: every key present in `arg` wins, even when it
      holds `undefined`; every absent key keeps the value of `base`. */
  function Merge(base: Config, arg: ConfigArg): (c: Config)
    ensures arg.name.Some? ==> c.name == arg.name.value
    ensures arg.name.None? ==> c.name == base.name
    ensures arg.dateFormat.Some? ==> c.dateFormat == arg.dateFormat.value
    ensures arg.dateFormat.None? ==> c.dateFormat == base.dateFormat
    ensures arg.showLevel.Some? ==> c.showLevel == arg.showLevel.value
    ensures arg.showLevel.None? ==> c.showLevel == base.showLevel
    ensures arg.writeLevel.Some? ==> c.writeLevel == arg.writeLevel.value
    ensures arg.writeLevel.None? ==> c.writeLevel == base.writeLevel
    ensures arg.path.Some? ==> c.path == arg.path.value
    ensures arg.path.None? ==> c.path == base.path
  {
    Config(
      Spread(base.name, arg.name),
      Spread(base.dateFormat, arg.dateFormat),
      Spread(base.showLevel, arg.showLevel),
      Spread(base.writeLevel, arg.writeLevel),
      Spread(base.path, arg.path))
  }

  /** Spreading an object without keys changes nothing. */
  lemma MergeNoKeys(base: Config)
    ensures Merge(base, NoKeys) == base
  {
  }

  /** Spreading an object that spells out every key forgets the base. */
  lemma MergeAllKeys(base: Config, c: Config)
    ensures Merge(base, AllKeys(c)) == c
  {
  }

  /** Spreading the same object twice is spreading it once. */
  lemma MergeIdempotent(base: Config, arg: ConfigArg)
    ensures Merge(Merge(base, arg), arg) == Merge(base, arg)
  {
  }

  /** A logger is its configuration. */
  datatype Logger = Logger(config: Config)

  /** `new Logger(config?)`: each key takes the argument's value when the
      argument has that key, even if it holds `undefined`, and the default
      otherwise. */
  function NewLogger(arg: Option<ConfigArg>): (lg: Logger)
    ensures lg.config.name == if arg.Some? && arg.value.name.Some? then arg.value.name.value else Some("App")
    ensures lg.config.dateFormat
         == if arg.Some? && arg.value.dateFormat.Some? then arg.value.dateFormat.value else Some("yyyy-MM-dd HH:mm:ss.SSS")
    ensures lg.config.showLevel
         == if arg.Some? && arg.value.showLevel.Some? then arg.value.showLevel.value else Some([Info, Warn, Error, Verbose])
    ensures lg.config.writeLevel
         == if arg.Some? && arg.value.writeLevel.Some? then arg.value.writeLevel.value else Some([Info, Warn, Error])
    ensures lg.config.path == if arg.Some? && arg.value.path.Some? then arg.value.path.value else Some("./logs")
  {
    match arg
    case None => Logger(Defaults)
    case Some(a) => Logger(Merge(Defaults, a))
  }

  /** `getConfig()`. */
  function GetConfig(lg: Logger): Config {
    lg.config
  }

  /** A logger built from an object that sets every key reports exactly
      that object back. */
  lemma GetConfigRoundTrip(c: Config)
    ensures GetConfig(NewLogger(Some(AllKeys(c)))) == c
  {
  }

  /** A logger built without an argument, or from `{}`, reports the defaults. */
  lemma GetConfigDefaults()
    ensures GetConfig(NewLogger(None)) == Defaults
    ensures GetConfig(NewLogger(Some(NoKeys))) == Defaults
  {
  }

  /** A template literal renders `undefined` as the word itself. */
  function TextOf(v: Option<string>): string {
    v.GetOr("undefined")
  }

  /** The date pattern `getDate` receives: an `undefined` one falls back to the
      parameter's default. */
  function FormatOf(c: Config): string {
    c.dateFormat.GetOr(DefaultFormat)
  }

  /** The level lists, with `undefined` destructured to `[]`. */
  function ShownLevels(c: Config): seq<Level> {
    c.showLevel.GetOr([])
  }

  function WrittenLevels(c: Config): seq<Level> {
    c.writeLevel.GetOr([])
  }

  // ---------------------------------------------------------------------
  // The two lines of a message
  // ---------------------------------------------------------------------

  /** The raw line after its colour marker:
      `<datetime> [<name>] - <level>:<reset marker> <message>`. */
  function Body(datetime: string, name: string, level: Level, msg: string): string {
    Head(datetime, name, level) + ResetMarker + (" " + msg)
  }

  /** The part in front of the reset marker: `<datetime> [<name>] - <level>:`. */
  function Head(datetime: string, name: string, level: Level): string {
    datetime + " [" + name + "] - " + LevelName(level) + ":"
  }

  /** The two renderings of one message. */
  datatype Lines = Lines(file: string, console: string)

  /** `log`'s text work: the raw line starts with the colour marker; the file
      line drops both markers, the console line turns them into the level's
      colour and the reset escape. Each replacement is a first-occurrence
      `replace`, so the console line is always the file line wrapped in the
      colour with the reset escape put back in one place. */
  function RenderLines(level: Level, msg: string, name: string, datetime: string): (r: Lines)
    ensures exists i: nat | i <= |r.file| :: r.console == ColorCode(level) + r.file[..i] + ResetColor + r.file[i..]
  {
    var raw := ColorMarker + Body(datetime, name, level, msg);
    var file := ReplaceFirst(ReplaceFirst(raw, ColorMarker, ""), ResetMarker, "");
    var console := ReplaceFirst(ReplaceFirst(raw, ColorMarker, ColorCode(level)), ResetMarker, ResetColor);
    ConsoleWrapsFile(level, msg, name, datetime);
    Lines(file, console)
  }

  /** The colour marker always opens the raw line, so the first replacement
      swaps it for the colour; the reset marker is then looked for in the
      body alone, since no colour code contains its first character. */
  lemma MarkersFromBody(level: Level, msg: string, name: string, datetime: string)
    ensures var raw := ColorMarker + Body(datetime, name, level, msg);
            ReplaceFirst(ReplaceFirst(raw, ColorMarker, ""), ResetMarker, "")
            == ReplaceFirst(Body(datetime, name, level, msg), ResetMarker, "")
    ensures var raw := ColorMarker + Body(datetime, name, level, msg);
            ReplaceFirst(ReplaceFirst(raw, ColorMarker, ColorCode(level)), ResetMarker, ResetColor)
            == ColorCode(level) + ReplaceFirst(Body(datetime, name, level, msg), ResetMarker, ResetColor)
  {
    var body := Body(datetime, name, level, msg);
    ReplaceFirstAtStart(ColorMarker, "", body);
    assert "" + body == body;
    ReplaceFirstAtStart(ColorMarker, ColorCode(level), body);
    ReplaceFirstPrefix(ColorCode(level), body, ResetMarker, ResetColor);
  }

  lemma ConsoleWrapsFile(level: Level, msg: string, name: string, datetime: string)
    ensures var raw := ColorMarker + Body(datetime, name, level, msg);
            var file := ReplaceFirst(ReplaceFirst(raw, ColorMarker, ""), ResetMarker, "");
            var console := ReplaceFirst(ReplaceFirst(raw, ColorMarker, ColorCode(level)), ResetMarker, ResetColor);
            exists i: nat | i <= |file| :: console == ColorCode(level) + file[..i] + ResetColor + file[i..]
  {
    var body := Body(datetime, name, level, msg);
    MarkersFromBody(level, msg, name, datetime);
    var head := Head(datetime, name, level);
    OccursBetween(head, ResetMarker, " " + msg);
    ReplaceOrDropSomewhere(body, ResetMarker, ResetColor, |head|);
  }

  /** The prefix of the body in front of the reset marker cannot hold the
      marker, nor end in a part of it, as long as the date text and the name
      do not hold it: the separators around them share no character with it. */
  lemma NoMarkerBefore(datetime: string, name: string, level: Level)
    requires !Contains(datetime, ResetMarker) && !Contains(name, ResetMarker)
    ensures !Contains(Head(datetime, name, level) + ResetMarker[..|ResetMarker| - 1], ResetMarker)
  {
    var partial := ResetMarker[..|ResetMarker| - 1];
    ShortNoContains(partial, ResetMarker);
    ShortNoContains(LevelName(level), ResetMarker);
    ContainsAcrossSeparator(datetime + " [" + name + "] - " + LevelName(level), ":", partial, ResetMarker);
    ContainsAcrossSeparator(datetime + " [" + name, "] - ", LevelName(level), ResetMarker);
    ContainsAcrossSeparator(datetime, " [", name, ResetMarker);
  }

  /** When neither the date text nor the name contains the reset marker, the
      file line is exactly `<datetime> [<name>] - <level>: <message>`. */
  lemma FileLineShape(level: Level, msg: string, name: string, datetime: string)
    requires !Contains(datetime, ResetMarker) && !Contains(name, ResetMarker)
    ensures RenderLines(level, msg, name, datetime).file == Head(datetime, name, level) + " " + msg
  {
    var head := Head(datetime, name, level);
    MarkersFromBody(level, msg, name, datetime);
    NoMarkerBefore(datetime, name, level);
    ReplaceFirstAt(head, ResetMarker, "", " " + msg);
    assert head + "" + (" " + msg) == head + " " + msg;
  }

  /** Under the same condition the console line is exactly
      `<colour><datetime> [<name>] - <level>:<reset> <message>`. */
  lemma ConsoleLineShape(level: Level, msg: string, name: string, datetime: string)
    requires !Contains(datetime, ResetMarker) && !Contains(name, ResetMarker)
    ensures RenderLines(level, msg, name, datetime).console
         == ColorCode(level) + Head(datetime, name, level) + ResetColor + " " + msg
  {
    var head := Head(datetime, name, level);
    MarkersFromBody(level, msg, name, datetime);
    NoMarkerBefore(datetime, name, level);
    ReplaceFirstAt(head, ResetMarker, ResetColor, " " + msg);
    RegroupLine(ColorCode(level), head, ResetColor, " ", msg);
  }

  lemma RegroupLine(a: string, b: string, c: string, d: string, e: string)
    ensures a + (b + c + (d + e)) == a + b + c + d + e
  {
  }

  /** Had `log` read the clock once, the file named after that reading's day
      would only receive lines that open with the same day, under the
      default pattern. (The code reads it twice; see `Log`.) */
  lemma OneReadingLineMatchesFile(level: Level, msg: string, name: string, d: DateFields)
    requires !Contains(name, ResetMarker)
    ensures RenderDate(DayFormat, d) <= RenderLines(level, msg, name, RenderDate(DefaultFormat, d)).file
  {
    var dt := RenderDate(DefaultFormat, d);
    RenderDefaultFormat(d);
    assert ResetMarker[0] == '_';
    AbsentFirstChar(dt, ResetMarker);
    FileLineShape(level, msg, name, dt);
    DefaultStartsWithDay(d);
    var day := RenderDate(DayFormat, d);
    PrefixExtend(day, dt, " [" + name + "] - " + LevelName(level) + ":" + " " + msg);
    Regroup6(dt, " [", name, "] - ", LevelName(level), ":", " ", msg);
  }

  lemma Regroup6(x: string, a: string, b: string, c: string, d: string, e: string, f: string, g: string)
    ensures x + a + b + c + d + e + f + g == x + (a + b + c + d + e + f + g)
  {
  }

  // ---------------------------------------------------------------------
  // One call
  // ---------------------------------------------------------------------

  /** The log files (path to content) and the lines printed so far. */
  datatype World = World(files: map<string, string>, console: seq<string>)

  /** What a path holds; a missing file reads as empty. */
  function Contents(files: map<string, string>, p: string): string {
    if p in files then files[p] else ""
  }

  /** `writeLog`'s path: `<path>/<name>/<day>.log`, the day read from the
      clock anew. */
  function FilePath(c: Config, day: DateFields): string {
    TextOf(c.path) + "/" + TextOf(c.name) + "/" + RenderDate(DayFormat, day) + ".log"
  }

  /** The two lines a message renders under the logger's configuration, its
      date read at `stamp`. */
  function MessageLines(lg: Logger, level: Level, msg: string, stamp: DateFields): Lines {
    RenderLines(level, msg, TextOf(lg.config.name), RenderDate(FormatOf(lg.config), stamp))
  }

  /** `fs.writeFileSync(p, text, { flag: "a+" })`: `text` goes after what the
      file holds, a missing file is created, and no other file changes. */
  function AppendTo(files: map<string, string>, p: string, text: string): (r: map<string, string>)
    ensures p in r && r[p] == Contents(files, p) + text
    ensures forall q | q != p :: (q in r <==> q in files) && Contents(r, q) == Contents(files, q)
  {
    files[p := Contents(files, p) + text]
  }

  /** `log(level, message)`. `stamp` is the clock reading that dates the line,
      `day` the later reading `writeLog` takes to name the file. The file
      line plus `\r\n` is appended to that file (created if missing) when the
      level is in `writeLevel`; the console line is printed when it is in
      `showLevel`; nothing else changes. */
  function Log(lg: Logger, level: Level, msg: string, stamp: DateFields, day: DateFields, w: World): (r: World)
    ensures var c := lg.config;
            var lines := MessageLines(lg, level, msg, stamp);
            && (level in WrittenLevels(c) ==>
                  FilePath(c, day) in r.files
                  && r.files[FilePath(c, day)] == Contents(w.files, FilePath(c, day)) + (lines.file + LineEnd))
            && (forall p | p != FilePath(c, day) || level !in WrittenLevels(c) ::
                  (p in r.files <==> p in w.files) && Contents(r.files, p) == Contents(w.files, p))
            && (level in ShownLevels(c) ==> r.console == w.console + [lines.console])
            && (level !in ShownLevels(c) ==> r.console == w.console)
  {
    var c := lg.config;
    var lines := MessageLines(lg, level, msg, stamp);
    var files := if level in WrittenLevels(c) then AppendTo(w.files, FilePath(c, day), lines.file + LineEnd) else w.files;
    var console := if level in ShownLevels(c) then w.console + [lines.console] else w.console;
    World(files, console)
  }

  /** As written, the file named after the `writeLog` reading `day` receives
      a line that opens with the day of the earlier reading `stamp` (under
      the default pattern). When the two readings fall on different calendar
      days, that day stamp differs from the one naming the file. */
  lemma WrittenLineDatedByStamp(lg: Logger, level: Level, msg: string, stamp: DateFields, day: DateFields, w: World)
    requires level in WrittenLevels(lg.config) && FormatOf(lg.config) == DefaultFormat
    requires !Contains(TextOf(lg.config.name), ResetMarker)
    ensures var p := FilePath(lg.config, day);
            var line := MessageLines(lg, level, msg, stamp).file;
            && Log(lg, level, msg, stamp, day, w).files[p] == Contents(w.files, p) + (line + LineEnd)
            && RenderDate(DayFormat, stamp) <= line
    ensures ValidDate(stamp) && ValidDate(day)
            && (stamp.year, stamp.month, stamp.day) != (day.year, day.month, day.day)
            ==> RenderDate(DayFormat, stamp) != RenderDate(DayFormat, day)
  {
    OneReadingLineMatchesFile(level, msg, TextOf(lg.config.name), stamp);
    if ValidDate(stamp) && ValidDate(day) {
      DayStampSameDay(stamp, day);
    }
  }

  /** The public level methods: each logs at its own level. When the level
      is written, the day's file gains the message's file line; otherwise no
      file changes. When the level is shown, the console gains one line that
      is the message's console line, which opens with the level's colour;
      otherwise it is unchanged. */
  function LogInfo(lg: Logger, msg: string, stamp: DateFields, day: DateFields, w: World): (r: World)
    ensures Info in WrittenLevels(lg.config) ==>
              FilePath(lg.config, day) in r.files
              && r.files[FilePath(lg.config, day)]
                 == Contents(w.files, FilePath(lg.config, day)) + (MessageLines(lg, Info, msg, stamp).file + LineEnd)
    ensures Info !in WrittenLevels(lg.config) ==> r.files == w.files
    ensures Info in ShownLevels(lg.config) ==> |r.console| == |w.console| + 1 && r.console[..|w.console|] == w.console
    ensures Info in ShownLevels(lg.config) ==> ColorCode(Info) <= r.console[|w.console|]
    ensures Info in ShownLevels(lg.config) ==> r.console == w.console + [MessageLines(lg, Info, msg, stamp).console]
    ensures Info !in ShownLevels(lg.config) ==> r.console == w.console
  {
    LevelLine(lg, Info, msg, stamp, day, w);
    Log(lg, Info, msg, stamp, day, w)
  }

  function LogWarn(lg: Logger, msg: string, stamp: DateFields, day: DateFields, w: World): (r: World)
    ensures Warn in WrittenLevels(lg.config) ==>
              FilePath(lg.config, day) in r.files
              && r.files[FilePath(lg.config, day)]
                 == Contents(w.files, FilePath(lg.config, day)) + (MessageLines(lg, Warn, msg, stamp).file + LineEnd)
    ensures Warn !in WrittenLevels(lg.config) ==> r.files == w.files
    ensures Warn in ShownLevels(lg.config) ==> |r.console| == |w.console| + 1 && r.console[..|w.console|] == w.console
    ensures Warn in ShownLevels(lg.config) ==> ColorCode(Warn) <= r.console[|w.console|]
    ensures Warn in ShownLevels(lg.config) ==> r.console == w.console + [MessageLines(lg, Warn, msg, stamp).console]
    ensures Warn !in ShownLevels(lg.config) ==> r.console == w.console
  {
    LevelLine(lg, Warn, msg, stamp, day, w);
    Log(lg, Warn, msg, stamp, day, w)
  }

  function LogError(lg: Logger, msg: string, stamp: DateFields, day: DateFields, w: World): (r: World)
    ensures Error in WrittenLevels(lg.config) ==>
              FilePath(lg.config, day) in r.files
              && r.files[FilePath(lg.config, day)]
                 == Contents(w.files, FilePath(lg.config, day)) + (MessageLines(lg, Error, msg, stamp).file + LineEnd)
    ensures Error !in WrittenLevels(lg.config) ==> r.files == w.files
    ensures Error in ShownLevels(lg.config) ==> |r.console| == |w.console| + 1 && r.console[..|w.console|] == w.console
    ensures Error in ShownLevels(lg.config) ==> ColorCode(Error) <= r.console[|w.console|]
    ensures Error in ShownLevels(lg.config) ==> r.console == w.console + [MessageLines(lg, Error, msg, stamp).console]
    ensures Error !in ShownLevels(lg.config) ==> r.console == w.console
  {
    LevelLine(lg, Error, msg, stamp, day, w);
    Log(lg, Error, msg, stamp, day, w)
  }

  function LogVerbose(lg: Logger, msg: string, stamp: DateFields, day: DateFields, w: World): (r: World)
    ensures Verbose in WrittenLevels(lg.config) ==>
              FilePath(lg.config, day) in r.files
              && r.files[FilePath(lg.config, day)]
                 == Contents(w.files, FilePath(lg.config, day)) + (MessageLines(lg, Verbose, msg, stamp).file + LineEnd)
    ensures Verbose !in WrittenLevels(lg.config) ==> r.files == w.files
    ensures Verbose in ShownLevels(lg.config) ==> |r.console| == |w.console| + 1 && r.console[..|w.console|] == w.console
    ensures Verbose in ShownLevels(lg.config) ==> ColorCode(Verbose) <= r.console[|w.console|]
    ensures Verbose in ShownLevels(lg.config) ==> r.console == w.console + [MessageLines(lg, Verbose, msg, stamp).console]
    ensures Verbose !in ShownLevels(lg.config) ==> r.console == w.console
  {
    LevelLine(lg, Verbose, msg, stamp, day, w);
    Log(lg, Verbose, msg, stamp, day, w)
  }

  /** A printed line opens with the colour of the level it was logged at;
      a level that is not written leaves every file as it was. */
  lemma LevelLine(lg: Logger, level: Level, msg: string, stamp: DateFields, day: DateFields, w: World)
    ensures var r := Log(lg, level, msg, stamp, day, w);
            level in ShownLevels(lg.config) ==>
              |r.console| == |w.console| + 1 && r.console[..|w.console|] == w.console
              && ColorCode(level) <= r.console[|w.console|]
    ensures level !in WrittenLevels(lg.config) ==> Log(lg, level, msg, stamp, day, w).files == w.files
  {
    var lines := MessageLines(lg, level, msg, stamp);
    var r := Log(lg, level, msg, stamp, day, w);
    if level in ShownLevels(lg.config) {
      assert r.console[|w.console|] == lines.console;
      var i: nat :| i <= |lines.file| && lines.console == ColorCode(level) + lines.file[..i] + ResetColor + lines.file[i..];
      assert lines.console[..|ColorCode(level)|] == ColorCode(level);
    }
  }
}

=== FILE: options.dfy ===
/** The optional-value type used across the model. In the logger's
    configuration it also stands for JavaScript's `undefined`: `None` is a
    key that holds `undefined`, `Some(v)` a key that holds `v`. */
module Options {

  datatype Option<+T> = None | Some(value: T) {

    /** The value, or `default` when there is none. */
    function GetOr(default: T): T {
      match this
      case Some(v) => v
      case None => default
    }
  }
}

=== FILE: patterns.dfy ===
/** The date patterns the logger's test suite renders, worked out for every
    instant: a day-first pattern, a pattern whose tokens appear out of the
    replacement order and twice, and each token on its own. Together they pin
    down that `getDate` replaces each token once, at its leftmost occurrence,
    in the fixed order yyyy, MM, dd, HH, mm, ss, SSS. */
module DatePatterns {
  import opened Strings
  import opened Decimal
  import opened DateFormat

  const DayFirstFormat: string := "dd/MM/yyyy HH:mm:ss.SSS"

  /** Tokens out of order, and the year token a second time. */
  const RepeatedFormat: string := "yyyy MM SSS ss HH dd mm 'yyyy'"

  lemma InertConcat(a: string, b: string)
    requires Inert(a) && Inert(b)
    ensures Inert(a + b)
  {
    var t := a + b;
    forall i | 0 <= i < |t|
      ensures t[i] !in "yMdHmsS_"
    {
      if i < |a| {
        assert t[i] == a[i];
      } else {
        assert t[i] == b[i - |a|];
      }
    }
  }

  // ---------------------------------------------------------------------
  // Day first
  // ---------------------------------------------------------------------

  lemma SplitAfter(a: string, b: string, c: string, d: string, e: string)
    ensures a + (b + c) + d + e == a + b + (c + d + e)
  {
  }

  lemma SplitFront(a: string, b: string, c: string, d: string)
    ensures a + b + c + d == "" + a + (b + c + d)
  {
  }

  lemma Flatten6(a: string, b: string, c: string, d: string, e: string, f: string)
    ensures "" + a + (b + c + (d + e + f)) == a + b + c + d + e + f
  {
  }

  /** The year token sits behind the day and month tokens, yet it is the
      first one replaced; then the month, then the day at the very start. */
  lemma DayFirstDateSteps(y: string, mo: string, dd: string, rest: string)
    requires rest == " " + "HH" + (":" + "mm" + (":" + "ss" + ("." + "SSS" + "")))
    requires Numeric(y) && Numeric(mo) && Numeric(dd)
    ensures
      var s1 := ReplaceFirst(DayFirstFormat, "yyyy", y);
      var s2 := ReplaceFirst(s1, "MM", mo);
      ReplaceFirst(s2, "dd", dd) == dd + "/" + mo + "/" + y + rest
    ensures Inert(dd + "/" + mo + "/" + y)
  {
    var front, mid := "dd" + "/", "MM" + "/";
    assert DayFirstFormat == front + mid + "yyyy" + rest;
    ReplaceFirstAfter(front + mid, "yyyy", y, rest);
    SplitAfter(front, "MM", "/", y, rest);
    ReplaceFirstAfter(front, "MM", mo, "/" + y + rest);
    SplitFront("dd", "/", mo, "/" + y + rest);
    ReplaceFirstAfter("", "dd", dd, "/" + mo + ("/" + y + rest));
    Flatten6(dd, "/", mo, "/", y, rest);
    NumericInert(dd);
    NumericInert(mo);
    NumericInert(y);
    InertConcat(dd, "/");
    InertConcat(dd + "/", mo);
    InertConcat(dd + "/" + mo, "/");
    InertConcat(dd + "/" + mo + "/", y);
  }

  lemma DayFirstChain(y: string, mo: string, dd: string, hh: string, mi: string, ss: string, ms: string)
    requires Numeric(y) && Numeric(mo) && Numeric(dd) && Numeric(hh) && Numeric(mi) && Numeric(ss) && Numeric(ms)
    ensures
      var s1 := ReplaceFirst(DayFirstFormat, "yyyy", y);
      var s2 := ReplaceFirst(s1, "MM", mo);
      var s3 := ReplaceFirst(s2, "dd", dd);
      var s4 := ReplaceFirst(s3, "HH", hh);
      var s5 := ReplaceFirst(s4, "mm", mi);
      var s6 := ReplaceFirst(s5, "ss", ss);
      ReplaceFirst(s6, "SSS", ms) == dd + "/" + mo + "/" + y + " " + hh + ":" + mi + ":" + ss + "." + ms
  {
    var r6 := "." + "SSS" + "";
    var r5 := ":" + "ss" + r6;
    var r4 := ":" + "mm" + r5;
    var r3 := " " + "HH" + r4;
    DayFirstDateSteps(y, mo, dd, r3);
    var a3 := dd + "/" + mo + "/" + y;
    ChainStep(a3, " ", "HH", hh, r4);
    var a4 := a3 + " " + hh;
    ChainStep(a4, ":", "mm", mi, r5);
    var a5 := a4 + ":" + mi;
    ChainStep(a5, ":", "ss", ss, r6);
    var a6 := a5 + ":" + ss;
    ChainStep(a6, ".", "SSS", ms, "");
    assert a6 + "." + ms + "" == a6 + "." + ms;
  }

  /** `getDate("dd/MM/yyyy HH:mm:ss.SSS")` yields
      `<dd>/<MM>/<year> <HH>:<mm>:<ss>.<SSS>`, e.g. `01/01/2022 01:01:01.001`. */
  lemma RenderDayFirstFormat(d: DateFields)
    ensures RenderDate(DayFirstFormat, d)
         == Pad2(d.day) + "/" + Pad2(d.month) + "/" + IntToString(d.year) + " "
            + Pad2(d.hour) + ":" + Pad2(d.minute) + ":" + Pad2(d.second) + "." + Pad3(d.millisecond)
  {
    FieldsNumeric(d);
    DayFirstChain(IntToString(d.year), Pad2(d.month), Pad2(d.day), Pad2(d.hour), Pad2(d.minute), Pad2(d.second), Pad3(d.millisecond));
  }

  // ---------------------------------------------------------------------
  // Out of order and repeated
  // ---------------------------------------------------------------------

  // The pattern is kept as fourteen pieces, the tokens at even positions;
  // each link splits it around the piece being replaced.

  lemma Split14At0(p0: string, p1: string, p2: string, p3: string, p4: string, p5: string, p6: string, p7: string, p8: string, p9: string, p10: string, p11: string, p12: string, p13: string)
    ensures p0 + p1 + p2 + p3 + p4 + p5 + p6 + p7 + p8 + p9 + p10 + p11 + p12 + p13 == ("") + p0 + (p1 + p2 + p3 + p4 + p5 + p6 + p7 + p8 + p9 + p10 + p11 + p12 + p13)
  {
  }

  lemma Split14At2(p0: string, p1: string, p2: string, p3: string, p4: string, p5: string, p6: string, p7: string, p8: string, p9: string, p10: string, p11: string, p12: string, p13: string)
    ensures p0 + p1 + p2 + p3 + p4 + p5 + p6 + p7 + p8 + p9 + p10 + p11 + p12 + p13 == (p0 + p1) + p2 + (p3 + p4 + p5 + p6 + p7 + p8 + p9 + p10 + p11 + p12 + p13)
  {
  }

  lemma Split14At4(p0: string, p1: string, p2: string, p3: string, p4: string, p5: string, p6: string, p7: string, p8: string, p9: string, p10: string, p11: string, p12: string, p13: string)
    ensures p0 + p1 + p2 + p3 + p4 + p5 + p6 + p7 + p8 + p9 + p10 + p11 + p12 + p13 == (p0 + p1 + p2 + p3) + p4 + (p5 + p6 + p7 + p8 + p9 + p10 + p11 + p12 + p13)
  {
  }

  lemma Split14At6(p0: string, p1: string, p2: string, p3: string, p4: string, p5: string, p6: string, p7: string, p8: string, p9: string, p10: string, p11: string, p12: string, p13: string)
    ensures p0 + p1 + p2 + p3 + p4 + p5 + p6 + p7 + p8 + p9 + p10 + p11 + p12 + p13 == (p0 + p1 + p2 + p3 + p4 + p5) + p6 + (p7 + p8 + p9 + p10 + p11 + p12 + p13)
  {
  }

  lemma Split14At8(p0: string, p1: string, p2: string, p3: string, p4: string, p5: string, p6: string, p7: string, p8: string, p9: string, p10: string, p11: string, p12: string, p13: string)
    ensures p0 + p1 + p2 + p3 + p4 + p5 + p6 + p7 + p8 + p9 + p10 + p11 + p12 + p13 == (p0 + p1 + p2 + p3 + p4 + p5 + p6 + p7) + p8 + (p9 + p10 + p11 + p12 + p13)
  {
  }

  lemma Split14At10(p0: string, p1: string, p2: string, p3: string, p4: string, p5: string, p6: string, p7: string, p8: string, p9: string, p10: string, p11: string, p12: string, p13: string)
    ensures p0 + p1 + p2 + p3 + p4 + p5 + p6 + p7 + p8 + p9 + p10 + p11 + p12 + p13 == (p0 + p1 + p2 + p3 + p4 + p5 + p6 + p7 + p8 + p9) + p10 + (p11 + p12 + p13)
  {
  }

  lemma Split14At12(p0: string, p1: string, p2: string, p3: string, p4: string, p5: string, p6: string, p7: string, p8: string, p9: string, p10: string, p11: string, p12: string, p13: string)
    ensures p0 + p1 + p2 + p3 + p4 + p5 + p6 + p7 + p8 + p9 + p10 + p11 + p12 + p13 == (p0 + p1 + p2 + p3 + p4 + p5 + p6 + p7 + p8 + p9 + p10 + p11) + p12 + (p13)
  {
  }

  /** The links for the year, month and day: each token's leftmost occurrence
      follows only text without its first letter. */
  lemma RepeatedDateSteps(y: string, mo: string, dd: string)
    requires Numeric(y) && Numeric(mo) && Numeric(dd)
    ensures ReplaceFirst(ReplaceFirst(ReplaceFirst("yyyy" + " " + "MM" + " " + "SSS" + " " + "ss" + " " + "HH" + " " + "dd" + " " + "mm" + " 'yyyy'", "yyyy", y), "MM", mo), "dd", dd)
         == y + " " + mo + " " + "SSS" + " " + "ss" + " " + "HH" + " " + dd + " " + "mm" + " 'yyyy'"
  {
    NumericInert(y);
    NumericInert(mo);
    NumericInert(dd);
    Split14At0("yyyy", " ", "MM", " ", "SSS", " ", "ss", " ", "HH", " ", "dd", " ", "mm", " 'yyyy'");
    ReplaceFirstAfter("", "yyyy", y, " " + "MM" + " " + "SSS" + " " + "ss" + " " + "HH" + " " + "dd" + " " + "mm" + " 'yyyy'");
    Split14At0(y, " ", "MM", " ", "SSS", " ", "ss", " ", "HH", " ", "dd", " ", "mm", " 'yyyy'");
    Split14At2(y, " ", "MM", " ", "SSS", " ", "ss", " ", "HH", " ", "dd", " ", "mm", " 'yyyy'");
    ReplaceFirstAfter(y + " ", "MM", mo, " " + "SSS" + " " + "ss" + " " + "HH" + " " + "dd" + " " + "mm" + " 'yyyy'");
    Split14At2(y, " ", mo, " ", "SSS", " ", "ss", " ", "HH", " ", "dd", " ", "mm", " 'yyyy'");
    Split14At10(y, " ", mo, " ", "SSS", " ", "ss", " ", "HH", " ", "dd", " ", "mm", " 'yyyy'");
    ReplaceFirstAfter(y + " " + mo + " " + "SSS" + " " + "ss" + " " + "HH" + " ", "dd", dd, " " + "mm" + " 'yyyy'");
    Split14At10(y, " ", mo, " ", "SSS", " ", "ss", " ", "HH", " ", dd, " ", "mm", " 'yyyy'");
  }

  /** The links for the hour and minute: each token's leftmost occurrence
      follows only text without its first letter. */
  lemma RepeatedTimeSteps(y: string, mo: string, dd: string, hh: string, mi: string)
    requires Numeric(y) && Numeric(mo) && Numeric(dd) && Numeric(hh) && Numeric(mi)
    ensures ReplaceFirst(ReplaceFirst(y + " " + mo + " " + "SSS" + " " + "ss" + " " + "HH" + " " + dd + " " + "mm" + " 'yyyy'", "HH", hh), "mm", mi)
         == y + " " + mo + " " + "SSS" + " " + "ss" + " " + hh + " " + dd + " " + mi + " 'yyyy'"
  {
    NumericInert(y);
    NumericInert(mo);
    NumericInert(dd);
    NumericInert(hh);
    NumericInert(mi);
    Split14At8(y, " ", mo, " ", "SSS", " ", "ss", " ", "HH", " ", dd, " ", "mm", " 'yyyy'");
    ReplaceFirstAfter(y + " " + mo + " " + "SSS" + " " + "ss" + " ", "HH", hh, " " + dd + " " + "mm" + " 'yyyy'");
    Split14At8(y, " ", mo, " ", "SSS", " ", "ss", " ", hh, " ", dd, " ", "mm", " 'yyyy'");
    Split14At12(y, " ", mo, " ", "SSS", " ", "ss", " ", hh, " ", dd, " ", "mm", " 'yyyy'");
    ReplaceFirstAfter(y + " " + mo + " " + "SSS" + " " + "ss" + " " + hh + " " + dd + " ", "mm", mi, " 'yyyy'");
    Split14At12(y, " ", mo, " ", "SSS", " ", "ss", " ", hh, " ", dd, " ", mi, " 'yyyy'");
  }

  /** The links for the second and millisecond: each token's leftmost occurrence
      follows only text without its first letter. */
  lemma RepeatedSecondSteps(y: string, mo: string, dd: string, hh: string, mi: string, ss: string, ms: string)
    requires Numeric(y) && Numeric(mo) && Numeric(dd) && Numeric(hh) && Numeric(mi) && Numeric(ss) && Numeric(ms)
    ensures ReplaceFirst(ReplaceFirst(y + " " + mo + " " + "SSS" + " " + "ss" + " " + hh + " " + dd + " " + mi + " 'yyyy'", "ss", ss), "SSS", ms)
         == y + " " + mo + " " + ms + " " + ss + " " + hh + " " + dd + " " + mi + " 'yyyy'"
  {
    NumericInert(y);
    NumericInert(mo);
    NumericInert(dd);
    NumericInert(hh);
    NumericInert(mi);
    NumericInert(ss);
    NumericInert(ms);
    Split14At6(y, " ", mo, " ", "SSS", " ", "ss", " ", hh, " ", dd, " ", mi, " 'yyyy'");
    ReplaceFirstAfter(y + " " + mo + " " + "SSS" + " ", "ss", ss, " " + hh + " " + dd + " " + mi + " 'yyyy'");
    Split14At6(y, " ", mo, " ", "SSS", " ", ss, " ", hh, " ", dd, " ", mi, " 'yyyy'");
    Split14At4(y, " ", mo, " ", "SSS", " ", ss, " ", hh, " ", dd, " ", mi, " 'yyyy'");
    ReplaceFirstAfter(y + " " + mo + " ", "SSS", ms, " " + ss + " " + hh + " " + dd + " " + mi + " 'yyyy'");
    Split14At4(y, " ", mo, " ", ms, " ", ss, " ", hh, " ", dd, " ", mi, " 'yyyy'");
  }

  lemma RepeatedChain(y: string, mo: string, dd: string, hh: string, mi: string, ss: string, ms: string)
    requires Numeric(y) && Numeric(mo) && Numeric(dd) && Numeric(hh) && Numeric(mi) && Numeric(ss) && Numeric(ms)
    ensures
      var s1 := ReplaceFirst(RepeatedFormat, "yyyy", y);
      var s2 := ReplaceFirst(s1, "MM", mo);
      var s3 := ReplaceFirst(s2, "dd", dd);
      var s4 := ReplaceFirst(s3, "HH", hh);
      var s5 := ReplaceFirst(s4, "mm", mi);
      var s6 := ReplaceFirst(s5, "ss", ss);
      ReplaceFirst(s6, "SSS", ms)
        == y + " " + mo + " " + ms + " " + ss + " " + hh + " " + dd + " " + mi + " 'yyyy'"
  {
    assert RepeatedFormat == "yyyy" + " " + "MM" + " " + "SSS" + " " + "ss" + " " + "HH" + " " + "dd" + " " + "mm" + " 'yyyy'";
    RepeatedDateSteps(y, mo, dd);
    RepeatedTimeSteps(y, mo, dd, hh, mi);
    RepeatedSecondSteps(y, mo, dd, hh, mi, ss, ms);
  }

  /** `getDate("yyyy MM SSS ss HH dd mm 'yyyy'")`: every token is replaced
      where it stands, whatever its place in the pattern, and only once: the
      second, quoted year token stays as it is. */
  lemma RenderRepeatedFormat(d: DateFields)
    ensures RenderDate(RepeatedFormat, d)
         == IntToString(d.year) + " " + Pad2(d.month) + " " + Pad3(d.millisecond) + " " + Pad2(d.second) + " "
            + Pad2(d.hour) + " " + Pad2(d.day) + " " + Pad2(d.minute) + " 'yyyy'"
  {
    FieldsNumeric(d);
    RepeatedChain(IntToString(d.year), Pad2(d.month), Pad2(d.day), Pad2(d.hour), Pad2(d.minute), Pad2(d.second), Pad3(d.millisecond));
  }

  // ---------------------------------------------------------------------
  // One token alone
  // ---------------------------------------------------------------------

  /** A pattern that is one token becomes the rendered field. */
  lemma Alone(tok: string, v: string)
    requires |tok| > 0
    ensures ReplaceFirst(tok, tok, v) == v
  {
    ReplaceFirstAtStart(tok, v, "");
    assert tok + "" == tok;
    assert v + "" == v;
  }

  /** Each token on its own renders as its field alone: `getDate("yyyy")`
      is the year, `getDate("MM")` the padded month, and so on. */
  lemma RenderTokenAlone(d: DateFields)
    ensures RenderDate("yyyy", d) == IntToString(d.year)
    ensures RenderDate("MM", d) == Pad2(d.month)
    ensures RenderDate("dd", d) == Pad2(d.day)
    ensures RenderDate("HH", d) == Pad2(d.hour)
    ensures RenderDate("mm", d) == Pad2(d.minute)
    ensures RenderDate("ss", d) == Pad2(d.second)
    ensures RenderDate("SSS", d) == Pad3(d.millisecond)
  {
    RenderYearAlone(d);
    RenderMonthAlone(d);
    RenderDayAlone(d);
    RenderHourAlone(d);
    RenderMinuteAlone(d);
    RenderSecondAlone(d);
    RenderMillisecondAlone(d);
  }

  lemma RenderYearAlone(d: DateFields)
    ensures RenderDate("yyyy", d) == IntToString(d.year)
  {
    FieldsNumeric(d);
    Alone("yyyy", IntToString(d.year));
    NumericInert(IntToString(d.year));
    InertUnchanged(IntToString(d.year), "MM", Pad2(d.month));
    InertUnchanged(IntToString(d.year), "dd", Pad2(d.day));
    InertUnchanged(IntToString(d.year), "HH", Pad2(d.hour));
    InertUnchanged(IntToString(d.year), "mm", Pad2(d.minute));
    InertUnchanged(IntToString(d.year), "ss", Pad2(d.second));
    InertUnchanged(IntToString(d.year), "SSS", Pad3(d.millisecond));
  }

  lemma RenderMonthAlone(d: DateFields)
    ensures RenderDate("MM", d) == Pad2(d.month)
  {
    FieldsNumeric(d);
    ReplaceAbsent("MM", "yyyy", IntToString(d.year));
    Alone("MM", Pad2(d.month));
    NumericInert(Pad2(d.month));
    InertUnchanged(Pad2(d.month), "dd", Pad2(d.day));
    InertUnchanged(Pad2(d.month), "HH", Pad2(d.hour));
    InertUnchanged(Pad2(d.month), "mm", Pad2(d.minute));
    InertUnchanged(Pad2(d.month), "ss", Pad2(d.second));
    InertUnchanged(Pad2(d.month), "SSS", Pad3(d.millisecond));
  }

  lemma RenderDayAlone(d: DateFields)
    ensures RenderDate("dd", d) == Pad2(d.day)
  {
    FieldsNumeric(d);
    ReplaceAbsent("dd", "yyyy", IntToString(d.year));
    ReplaceAbsent("dd", "MM", Pad2(d.month));
    Alone("dd", Pad2(d.day));
    NumericInert(Pad2(d.day));
    InertUnchanged(Pad2(d.day), "HH", Pad2(d.hour));
    InertUnchanged(Pad2(d.day), "mm", Pad2(d.minute));
    InertUnchanged(Pad2(d.day), "ss", Pad2(d.second));
    InertUnchanged(Pad2(d.day), "SSS", Pad3(d.millisecond));
  }

  lemma RenderHourAlone(d: DateFields)
    ensures RenderDate("HH", d) == Pad2(d.hour)
  {
    FieldsNumeric(d);
    ReplaceAbsent("HH", "yyyy", IntToString(d.year));
    ReplaceAbsent("HH", "MM", Pad2(d.month));
    ReplaceAbsent("HH", "dd", Pad2(d.day));
    Alone("HH", Pad2(d.hour));
    NumericInert(Pad2(d.hour));
    InertUnchanged(Pad2(d.hour), "mm", Pad2(d.minute));
    InertUnchanged(Pad2(d.hour), "ss", Pad2(d.second));
    InertUnchanged(Pad2(d.hour), "SSS", Pad3(d.millisecond));
  }

  lemma RenderMinuteAlone(d: DateFields)
    ensures RenderDate("mm", d) == Pad2(d.minute)
  {
    FieldsNumeric(d);
    ReplaceAbsent("mm", "yyyy", IntToString(d.year));
    ReplaceAbsent("mm", "MM", Pad2(d.month));
    ReplaceAbsent("mm", "dd", Pad2(d.day));
    ReplaceAbsent("mm", "HH", Pad2(d.hour));
    Alone("mm", Pad2(d.minute));
    NumericInert(Pad2(d.minute));
    InertUnchanged(Pad2(d.minute), "ss", Pad2(d.second));
    InertUnchanged(Pad2(d.minute), "SSS", Pad3(d.millisecond));
  }

  lemma RenderSecondAlone(d: DateFields)
    ensures RenderDate("ss", d) == Pad2(d.second)
  {
    FieldsNumeric(d);
    ReplaceAbsent("ss", "yyyy", IntToString(d.year));
    ReplaceAbsent("ss", "MM", Pad2(d.month));
    ReplaceAbsent("ss", "dd", Pad2(d.day));
    ReplaceAbsent("ss", "HH", Pad2(d.hour));
    ReplaceAbsent("ss", "mm", Pad2(d.minute));
    Alone("ss", Pad2(d.second));
    NumericInert(Pad2(d.second));
    InertUnchanged(Pad2(d.second), "SSS", Pad3(d.millisecond));
  }

  lemma RenderMillisecondAlone(d: DateFields)
    ensures RenderDate("SSS", d) == Pad3(d.millisecond)
  {
    FieldsNumeric(d);
    ReplaceAbsent("SSS", "yyyy", IntToString(d.year));
    ReplaceAbsent("SSS", "MM", Pad2(d.month));
    ReplaceAbsent("SSS", "dd", Pad2(d.day));
    ReplaceAbsent("SSS", "HH", Pad2(d.hour));
    ReplaceAbsent("SSS", "mm", Pad2(d.minute));
    ReplaceAbsent("SSS", "ss", Pad2(d.second));
    Alone("SSS", Pad3(d.millisecond));
  }
}

=== FILE: strings.dfy ===
/** Substring search and JavaScript's `String.prototype.replace` called with a
    string pattern: only the leftmost occurrence is replaced. */
module Strings {
  import opened Options

  /** `pat` occurs in `s` starting at index `i`. */
  predicate OccursAt(s: string, pat: string, i: nat) {
    i + |pat| <= |s| && s[i..i + |pat|] == pat
  }

  /** `pat` is a substring of `s`. */
  ghost predicate Contains(s: string, pat: string) {
    exists i: nat :: OccursAt(s, pat, i)
  }

  /** `i` is the leftmost occurrence of `pat` in `s`. */
  predicate FirstAt(s: string, pat: string, i: nat) {
    OccursAt(s, pat, i) && forall j: nat | j < i :: !OccursAt(s, pat, j)
  }

  /** Replaces the leftmost occurrence of `pat` at or after index `from`. */
  function ReplaceFrom(s: string, pat: string, rep: string, from: nat): string
    decreases |s| - from
  {
    if |s| < from + |pat| then s
    else if OccursAt(s, pat, from) then s[..from] + rep + s[from + |pat|..]
    else ReplaceFrom(s, pat, rep, from + 1)
  }

  /** `s.replace(pat, rep)` with a string pattern. */
  function ReplaceFirst(s: string, pat: string, rep: string): string {
    ReplaceFrom(s, pat, rep, 0)
  }

  /** The scan from `from` replaces the leftmost occurrence, and leaves the
      text alone when there is none from `from` on. */
  lemma {:induction false} ReplaceFromSpec(s: string, pat: string, rep: string, from: nat)
    requires forall j: nat | j < from :: !OccursAt(s, pat, j)
    ensures (forall j: nat | from <= j :: !OccursAt(s, pat, j)) ==> ReplaceFrom(s, pat, rep, from) == s
    ensures forall i: nat | FirstAt(s, pat, i) :: ReplaceFrom(s, pat, rep, from) == s[..i] + rep + s[i + |pat|..]
    decreases |s| - from
  {
    if |s| < from + |pat| {
    } else if OccursAt(s, pat, from) {
      assert FirstAt(s, pat, from);
    } else {
      ReplaceFromSpec(s, pat, rep, from + 1);
    }
  }

  /** `s.replace(pat, rep)`: the leftmost occurrence of `pat` is replaced by
      `rep`; without an occurrence `s` comes back unchanged. */
  lemma ReplaceFirstSpec(s: string, pat: string, rep: string)
    ensures !Contains(s, pat) ==> ReplaceFirst(s, pat, rep) == s
    ensures forall i: nat | FirstAt(s, pat, i) :: ReplaceFirst(s, pat, rep) == s[..i] + rep + s[i + |pat|..]
  {
    ReplaceFromSpec(s, pat, rep, 0);
  }

  /** A pattern whose first character does not appear in `s` does not occur in it. */
  lemma AbsentFirstChar(s: string, pat: string)
    requires |pat| > 0 && pat[0] !in s
    ensures !Contains(s, pat)
  {
    forall i: nat | OccursAt(s, pat, i)
      ensures false
    {
    }
  }

  /** A pattern whose first character is missing from `s` leaves it alone. */
  lemma ReplaceAbsent(s: string, pat: string, rep: string)
    requires |pat| > 0 && pat[0] !in s
    ensures ReplaceFirst(s, pat, rep) == s
  {
    AbsentFirstChar(s, pat);
    ReplaceFirstSpec(s, pat, rep);
  }

  /** If no occurrence of `pat` starts inside `a`, the one right after `a` is
      the leftmost, and it is the one replaced. */
  lemma {:induction false} ReplaceFirstAt(a: string, pat: string, rep: string, b: string)
    requires |pat| > 0 && !Contains(a + pat[..|pat| - 1], pat)
    ensures ReplaceFirst(a + pat + b, pat, rep) == a + rep + b
  {
    var s := a + pat + b;
    assert s[|a|..|a| + |pat|] == pat;
    forall j: nat | j < |a|
      ensures !OccursAt(s, pat, j)
    {
      if OccursAt(s, pat, j) {
        var t := a + pat[..|pat| - 1];
        assert t[j..j + |pat|] == s[j..j + |pat|];
        assert OccursAt(t, pat, j);
        assert false;
      }
    }
    assert FirstAt(s, pat, |a|);
    ReplaceFirstSpec(s, pat, rep);
    assert s[..|a|] == a;
    assert s[|a| + |pat|..] == b;
  }

  /** The leftmost occurrence is found whenever the pattern's first character
      does not appear before it. */
  lemma ReplaceFirstAfter(a: string, pat: string, rep: string, b: string)
    requires |pat| > 0 && pat[0] !in a
    ensures ReplaceFirst(a + pat + b, pat, rep) == a + rep + b
  {
    var t := a + pat[..|pat| - 1];
    forall i: nat | OccursAt(t, pat, i)
      ensures false
    {
    }
    ReplaceFirstAt(a, pat, rep, b);
  }

  /** A non-empty separator made of characters foreign to `pat` cannot lie
      under an occurrence of `pat`: every occurrence in `a + sep + b` is an
      occurrence in `a` or in `b`. */
  lemma ContainsAcrossSeparator(a: string, sep: string, b: string, pat: string)
    requires |pat| > 0 && |sep| > 0
    requires forall k | 0 <= k < |sep| :: sep[k] !in pat
    ensures Contains(a + sep + b, pat) ==> Contains(a, pat) || Contains(b, pat)
  {
    var s := a + sep + b;
    if Contains(s, pat) {
      var i: nat :| OccursAt(s, pat, i);
      if i + |pat| <= |a| {
        assert a[i..i + |pat|] == s[i..i + |pat|];
        assert OccursAt(a, pat, i);
      } else if i >= |a| + |sep| {
        var j: nat := i - |a| - |sep|;
        assert b[j..j + |pat|] == s[i..i + |pat|];
        assert OccursAt(b, pat, j);
      } else {
        // the occurrence would cover a separator character
        CharUnderOccurrence(s, pat, i, if i < |a| then |a| else i);
        assert false;
      }
    }
  }

  /** Every character covered by an occurrence of `pat` is a character of `pat`. */
  lemma CharUnderOccurrence(s: string, pat: string, i: nat, p: nat)
    requires OccursAt(s, pat, i) && i <= p < i + |pat|
    ensures s[p] in pat
  {
    assert s[p] == s[i..i + |pat|][p - i];
  }

  /** The pattern at the very start of the text is the one replaced. */
  lemma ReplaceFirstAtStart(pat: string, rep: string, b: string)
    requires |pat| > 0
    ensures ReplaceFirst(pat + b, pat, rep) == rep + b
  {
    var s := pat + b;
    assert s[..|pat|] == pat;
    assert FirstAt(s, pat, 0);
    ReplaceFirstSpec(s, pat, rep);
    assert s[..0] == [];
    assert s[|pat|..] == b;
  }

  /** One link of a chain of replacements: when the text is `a + rest` and
      `rest` opens with `sep + pat`, and the first character of `pat` appears
      in neither `a` nor `sep`, the replacement lands right after `sep`. */
  lemma ReplaceFirstAdvance(a: string, sep: string, pat: string, rep: string, rest: string, tail: string)
    requires rest == sep + pat + tail
    requires |pat| > 0 && pat[0] !in a + sep
    ensures ReplaceFirst(a + rest, pat, rep) == a + sep + rep + tail
  {
    assert a + rest == (a + sep) + pat + tail;
    ReplaceFirstAfter(a + sep, pat, rep, tail);
  }

  /** A string shorter than the pattern cannot contain it. */
  lemma ShortNoContains(s: string, pat: string)
    requires |s| < |pat|
    ensures !Contains(s, pat)
  {
  }

  /** Every text that contains `pat` has a leftmost occurrence of it. */
  lemma {:induction false} LeftmostExists(s: string, pat: string, k: nat)
    requires OccursAt(s, pat, k)
    ensures exists i: nat :: FirstAt(s, pat, i)
    decreases k
  {
    if forall j: nat | j < k :: !OccursAt(s, pat, j) {
      assert FirstAt(s, pat, k);
    } else {
      var j: nat :| j < k && OccursAt(s, pat, j);
      LeftmostExists(s, pat, j);
    }
  }

  /** No occurrence of `pat` starts inside a prefix that lacks its first
      character. */
  lemma NoStartIn(x: string, rest: string, pat: string)
    requires |pat| > 0 && pat[0] !in x
    ensures forall j: nat | j < |x| :: !OccursAt(x + rest, pat, j)
  {
    var s := x + rest;
    forall j: nat | j < |x|
      ensures !OccursAt(s, pat, j)
    {
      if OccursAt(s, pat, j) {
        CharUnderOccurrence(s, pat, j, j);
        assert false;
      }
    }
  }

  /** An occurrence at index `j` of `rest` is one at `|x| + j` of `x + rest`. */
  lemma ShiftOccurrence(x: string, rest: string, pat: string, j: nat)
    ensures OccursAt(x + rest, pat, |x| + j) <==> OccursAt(rest, pat, j)
  {
    var s := x + rest;
    if |x| + j + |pat| <= |s| {
      assert s[|x| + j..|x| + j + |pat|] == rest[j..j + |pat|];
    }
  }

  /** Text whose characters cannot start `pat` can be put in front without
      moving the replacement: it happens inside the rest. */
  lemma ReplaceFirstPrefix(x: string, rest: string, pat: string, rep: string)
    requires |pat| > 0 && pat[0] !in x
    ensures ReplaceFirst(x + rest, pat, rep) == x + ReplaceFirst(rest, pat, rep)
  {
    var s := x + rest;
    ReplaceFirstSpec(s, pat, rep);
    ReplaceFirstSpec(rest, pat, rep);
    NoStartIn(x, rest, pat);
    if Contains(rest, pat) {
      var k: nat :| OccursAt(rest, pat, k);
      LeftmostExists(rest, pat, k);
      var i: nat :| FirstAt(rest, pat, i);
      ReplaceFirstPrefixAt(x, rest, pat, rep, i);
    } else {
      forall j: nat | OccursAt(s, pat, j)
        ensures false
      {
        ShiftOccurrence(x, rest, pat, j - |x|);
      }
    }
  }

  lemma ReplaceFirstPrefixAt(x: string, rest: string, pat: string, rep: string, i: nat)
    requires |pat| > 0 && pat[0] !in x && FirstAt(rest, pat, i)
    ensures ReplaceFirst(x + rest, pat, rep) == x + ReplaceFirst(rest, pat, rep)
  {
    var s := x + rest;
    NoStartIn(x, rest, pat);
    ShiftOccurrence(x, rest, pat, i);
    forall j: nat | |x| <= j < |x| + i
      ensures !OccursAt(s, pat, j)
    {
      ShiftOccurrence(x, rest, pat, j - |x|);
    }
    assert FirstAt(s, pat, |x| + i);
    ReplaceAtLeftmost(s, pat, rep, |x| + i);
    ReplaceAtLeftmost(rest, pat, rep, i);
    assert s[..|x| + i] == x + rest[..i];
    assert s[|x| + i + |pat|..] == rest[i + |pat|..];
    assert x + rest[..i] + rep + rest[i + |pat|..] == x + (rest[..i] + rep + rest[i + |pat|..]);
  }

  /** The replacement at a known leftmost occurrence. */
  lemma ReplaceAtLeftmost(s: string, pat: string, rep: string, i: nat)
    requires FirstAt(s, pat, i)
    ensures ReplaceFirst(s, pat, rep) == s[..i] + rep + s[i + |pat|..]
  {
    ReplaceFirstSpec(s, pat, rep);
  }

  /** Replacing the leftmost occurrence, at `i`, by `rep` or by nothing gives
      texts that differ only by `rep`, inserted at `i`, where the occurrence
      was. */
  lemma ReplaceOrDrop(s: string, pat: string, rep: string, i: nat)
    requires FirstAt(s, pat, i)
    ensures i <= |ReplaceFirst(s, pat, "")|
    ensures ReplaceFirst(s, pat, rep)
            == ReplaceFirst(s, pat, "")[..i] + rep + ReplaceFirst(s, pat, "")[i..]
  {
    ReplaceAtLeftmost(s, pat, "", i);
    ReplaceAtLeftmost(s, pat, rep, i);
    var dropped := s[..i] + "" + s[i + |pat|..];
    assert dropped[..i] == s[..i];
    assert dropped[i..] == s[i + |pat|..];
  }

  /** The same, for a text known to hold `pat` somewhere: `rep` goes in at
      some point of the text without the occurrence. */
  lemma ReplaceOrDropSomewhere(s: string, pat: string, rep: string, k: nat)
    requires OccursAt(s, pat, k)
    ensures exists i: nat | i <= |ReplaceFirst(s, pat, "")| ::
              ReplaceFirst(s, pat, rep)
              == ReplaceFirst(s, pat, "")[..i] + rep + ReplaceFirst(s, pat, "")[i..]
  {
    LeftmostExists(s, pat, k);
    var i: nat :| FirstAt(s, pat, i);
    ReplaceOrDrop(s, pat, rep, i);
  }

  /** `pat` occurs where it was put. */
  lemma OccursBetween(a: string, pat: string, b: string)
    ensures OccursAt(a + pat + b, pat, |a|)
  {
    assert (a + pat + b)[|a|..|a| + |pat|] == pat;
  }

  // ---------------------------------------------------------------------
  // Concatenation
  // ---------------------------------------------------------------------

  lemma Assoc<T>(a: seq<T>, b: seq<T>, c: seq<T>)
    ensures a + b + c == a + (b + c)
  {
  }

  lemma EmptyRight<T>(a: seq<T>)
    ensures a + [] == a && [] + a == a
  {
  }

  lemma EmptyConcat<T>(a: seq<T>, b: seq<T>)
    ensures a + b == [] <==> a == [] && b == []
  {
    if a + b == [] {
      assert |a + b| == 0;
    }
  }

  /** A prefix stays a prefix when more is appended. */
  lemma PrefixExtend<T>(a: seq<T>, b: seq<T>, c: seq<T>)
    requires a <= b
    ensures a <= b + c
  {
    assert (b + c)[..|a|] == b[..|a|];
  }
}

=== FILE: trace.dfy ===
/** Sequences of logging calls on one logger: what ends up on the console
    and in each log file, stated against reference definitions that read the
    calls from the last one back. */
module Trace {
  import opened Options
  import opened Strings
  import opened DateFormat
  import opened Logging

  /** One call of a level method, with the two clock readings it takes: the
      one that dates the line and the one that names the file. */
  datatype Call = Call(level: Level, message: string, stamp: DateFields, day: DateFields)

  function Step(lg: Logger, call: Call, w: World): World {
    Log(lg, call.level, call.message, call.stamp, call.day, w)
  }

  /** What one call prints: its console line, if its level is shown. */
  function PrintedBy(lg: Logger, call: Call): seq<string> {
    if call.level in ShownLevels(lg.config) then [LinesOf(lg, call).console] else []
  }

  /** What one call appends to the file at `p`: its terminated file line, if
      its level is written and its day names `p`. */
  function AppendedBy(lg: Logger, call: Call, p: string): string {
    if call.level in WrittenLevels(lg.config) && FilePath(lg.config, call.day) == p
    then LinesOf(lg, call).file + LineEnd else ""
  }

  /** The console after one call. */
  lemma StepConsole(lg: Logger, call: Call, w: World)
    ensures Step(lg, call, w).console == w.console + PrintedBy(lg, call)
  {
    if call.level !in ShownLevels(lg.config) {
      EmptyRight(w.console);
    }
  }

  /** The files after one call. */
  lemma StepFiles(lg: Logger, call: Call, w: World, p: string)
    ensures Contents(Step(lg, call, w).files, p) == Contents(w.files, p) + AppendedBy(lg, call, p)
    ensures p in Step(lg, call, w).files <==> p in w.files || AppendedBy(lg, call, p) != ""
  {
    if AppendedBy(lg, call, p) == "" {
      EmptyRight(Contents(w.files, p));
    }
  }

  /** The calls made one after the other, the first one first. */
  function Run(lg: Logger, calls: seq<Call>, w: World): World
    decreases |calls|
  {
    if |calls| == 0 then w else Run(lg, calls[1..], Step(lg, calls[0], w))
  }

  /** The two lines a call renders. */
  function LinesOf(lg: Logger, call: Call): Lines {
    MessageLines(lg, call.level, call.message, call.stamp)
  }

  /** Reference definition: the console lines of the calls whose level is
      shown, in call order. */
  function Printed(lg: Logger, calls: seq<Call>): seq<string>
    decreases |calls|
  {
    if |calls| == 0 then []
    else
      var last := calls[|calls| - 1];
      Printed(lg, calls[..|calls| - 1]) + PrintedBy(lg, last)
  }

  /** Reference definition: the text the calls append to the file at `p`,
      one terminated file line per written call whose day names `p`, in call
      order. */
  function Appended(lg: Logger, calls: seq<Call>, p: string): string
    decreases |calls|
  {
    if |calls| == 0 then ""
    else
      var last := calls[|calls| - 1];
      Appended(lg, calls[..|calls| - 1], p) + AppendedBy(lg, last, p)
  }

  /** Running one more call is taking one more step after the others. */
  lemma {:induction false} RunSnoc(lg: Logger, calls: seq<Call>, call: Call, w: World)
    ensures Run(lg, calls + [call], w) == Step(lg, call, Run(lg, calls, w))
    decreases |calls|
  {
    if |calls| == 0 {
      assert calls + [call] == [call];
      assert [call][1..] == [];
    } else {
      assert (calls + [call])[1..] == calls[1..] + [call];
      RunSnoc(lg, calls[1..], call, Step(lg, calls[0], w));
    }
  }

  /** The console receives exactly the lines of the shown calls, in the order
      the calls were made, after what it already held. */
  lemma {:induction false} RunConsole(lg: Logger, calls: seq<Call>, w: World)
    ensures Run(lg, calls, w).console == w.console + Printed(lg, calls)
    decreases |calls|
  {
    if |calls| == 0 {
      EmptyRight(w.console);
    } else {
      var init, last := calls[..|calls| - 1], calls[|calls| - 1];
      assert calls == init + [last];
      RunSnoc(lg, init, last, w);
      RunConsole(lg, init, w);
      StepConsole(lg, last, Run(lg, init, w));
      Assoc(w.console, Printed(lg, init), PrintedBy(lg, last));
    }
  }

  /** Each file holds what it held before followed by exactly the lines the
      calls appended to it, in call order; a file exists afterwards exactly
      when it existed before or some call wrote to it. */
  lemma {:induction false} RunFiles(lg: Logger, calls: seq<Call>, w: World, p: string)
    ensures Contents(Run(lg, calls, w).files, p) == Contents(w.files, p) + Appended(lg, calls, p)
    ensures p in Run(lg, calls, w).files <==> p in w.files || Appended(lg, calls, p) != ""
    decreases |calls|
  {
    if |calls| == 0 {
      EmptyRight(Contents(w.files, p));
    } else {
      var init, last := calls[..|calls| - 1], calls[|calls| - 1];
      assert calls == init + [last];
      RunSnoc(lg, init, last, w);
      RunFiles(lg, init, w, p);
      StepFiles(lg, last, Run(lg, init, w), p);
      Assoc(Contents(w.files, p), Appended(lg, init, p), AppendedBy(lg, last, p));
      EmptyConcat(Appended(lg, init, p), AppendedBy(lg, last, p));
    }
  }

  /** With an empty or `undefined` `showLevel` nothing is printed; with an
      empty or `undefined` `writeLevel` no file is created or changed. */
  lemma Silent(lg: Logger, calls: seq<Call>, w: World)
    ensures ShownLevels(lg.config) == [] ==> Run(lg, calls, w).console == w.console
    ensures WrittenLevels(lg.config) == [] ==> Run(lg, calls, w).files == w.files
  {
    RunConsole(lg, calls, w);
    if ShownLevels(lg.config) == [] {
      NothingPrinted(lg, calls);
      EmptyRight(w.console);
    }
    if WrittenLevels(lg.config) == [] {
      var r := Run(lg, calls, w);
      forall p
        ensures (p in r.files <==> p in w.files) && (p in w.files ==> r.files[p] == w.files[p])
      {
        RunFiles(lg, calls, w, p);
        NothingAppended(lg, calls, p);
        EmptyRight(Contents(w.files, p));
      }
    }
  }

  lemma {:induction false} NothingPrinted(lg: Logger, calls: seq<Call>)
    requires ShownLevels(lg.config) == []
    ensures Printed(lg, calls) == []
    decreases |calls|
  {
    if |calls| > 0 {
      NothingPrinted(lg, calls[..|calls| - 1]);
    }
  }

  lemma {:induction false} NothingAppended(lg: Logger, calls: seq<Call>, p: string)
    requires WrittenLevels(lg.config) == []
    ensures Appended(lg, calls, p) == ""
    decreases |calls|
  {
    if |calls| > 0 {
      NothingAppended(lg, calls[..|calls| - 1], p);
    }
  }

  /** Stripping a common prefix and suffix. */
  lemma StripAround(a: string, x: string, y: string, b: string)
    requires a + x + b == a + y + b
    ensures x == y
  {
    assert x == (a + x + b)[|a|..|a| + |x|];
    assert y == (a + y + b)[|a|..|a| + |y|];
  }

  /** Two calls write to the same file exactly when `writeLog` read the same
      calendar day for both: a new day opens a new file. */
  lemma SameFileSameDay(c: Config, d1: DateFields, d2: DateFields)
    requires ValidDate(d1) && ValidDate(d2)
    ensures FilePath(c, d1) == FilePath(c, d2) <==> (d1.year, d1.month, d1.day) == (d2.year, d2.month, d2.day)
  {
    var dir := TextOf(c.path) + "/" + TextOf(c.name) + "/";
    if FilePath(c, d1) == FilePath(c, d2) {
      StripAround(dir, RenderDate(DayFormat, d1), RenderDate(DayFormat, d2), ".log");
    }
    DayStampSameDay(d1, d2);
  }

  /** What two calls append to a file: the first one's part, then the
      second one's. */
  lemma AppendedTwo(lg: Logger, c1: Call, c2: Call, p: string)
    ensures Appended(lg, [c1, c2], p) == AppendedBy(lg, c1, p) + AppendedBy(lg, c2, p)
  {
    assert [c1, c2][..1] == [c1];
    assert [c1][..0] == [];
    assert Appended(lg, [c1], p) == Appended(lg, [], p) + AppendedBy(lg, c1, p);
    EmptyRight(AppendedBy(lg, c1, p));
  }

  /** Two written calls on different days, starting from no files: each day's
      file holds exactly its own call's line. */
  lemma DayChange(lg: Logger, c1: Call, c2: Call)
    requires ValidDate(c1.day) && ValidDate(c2.day)
    requires c1.level in WrittenLevels(lg.config) && c2.level in WrittenLevels(lg.config)
    requires (c1.day.year, c1.day.month, c1.day.day) != (c2.day.year, c2.day.month, c2.day.day)
    ensures var r := Run(lg, [c1, c2], World(map[], []));
            && Contents(r.files, FilePath(lg.config, c1.day)) == LinesOf(lg, c1).file + LineEnd
            && Contents(r.files, FilePath(lg.config, c2.day)) == LinesOf(lg, c2).file + LineEnd
  {
    var c := lg.config;
    var p1, p2 := FilePath(c, c1.day), FilePath(c, c2.day);
    SameFileSameDay(c, c1.day, c2.day);
    var w0 := World(map[], []);
    RunFiles(lg, [c1, c2], w0, p1);
    RunFiles(lg, [c1, c2], w0, p2);
    AppendedTwo(lg, c1, c2, p1);
    AppendedTwo(lg, c1, c2, p2);
    EmptyRight(LinesOf(lg, c1).file + LineEnd);
    EmptyRight(LinesOf(lg, c2).file + LineEnd);
  }

  /** Two written calls whose `writeLog` readings fall on the same calendar
      day, at whatever times, land in one file, one line after the other,
      each terminated by `\r\n`. */
  lemma SameDayAppends(lg: Logger, c1: Call, c2: Call)
    requires c1.level in WrittenLevels(lg.config) && c2.level in WrittenLevels(lg.config)
    requires ValidDate(c1.day) && ValidDate(c2.day)
    requires (c1.day.year, c1.day.month, c1.day.day) == (c2.day.year, c2.day.month, c2.day.day)
    ensures Contents(Run(lg, [c1, c2], World(map[], [])).files, FilePath(lg.config, c1.day))
         == LinesOf(lg, c1).file + LineEnd + (LinesOf(lg, c2).file + LineEnd)
  {
    SameFileSameDay(lg.config, c1.day, c2.day);
    var p := FilePath(lg.config, c1.day);
    RunFiles(lg, [c1, c2], World(map[], []), p);
    AppendedTwo(lg, c1, c2, p);
    EmptyRight(LinesOf(lg, c1).file + LineEnd + (LinesOf(lg, c2).file + LineEnd));
  }

  /** A logger built with `showLevel` and `writeLevel` both given as
      `undefined` neither prints nor writes anything, whatever it is asked
      to log. */
  lemma SilentLogger(a: ConfigArg, calls: seq<Call>, w: World)
    requires a.showLevel == Some(None) && a.writeLevel == Some(None)
    ensures Run(NewLogger(Some(a)), calls, w) == w
  {
    Silent(NewLogger(Some(a)), calls, w);
  }
}
